=== FILE: README.md ===
# Schedule resampling, modelled in Dafny

This project models the resampling engine of the schedule provider: `resample_data` in
`idp_schedule_provider/forecaster/resampler.py` and the value types it works on, from
`idp_schedule_provider/forecaster/schemas.py`.

A schedule response holds one hourly timestamp axis and, for each asset, one list of entries.
An entry maps variable names to values. A value is an optional float, or an unbalanced
three-phase record whose phases A, B and C are each optional. `resample_data` brings such a
response to a requested `TimeInterval` as follows:

- **Empty axis, or target of one hour:** the response comes back unchanged.
- **Coarser target (day, month, year):** the axis is cut into windows. A new window opens at
  the first timestamp that reaches the current window's start plus the interval's delta. Each
  window collapses into its first slot. Under `HOLD_FIRST` the slot keeps its entry. Under
  `WEIGHTED_AVERAGE` it takes `_weighted_average`, the per-variable mean of the window.
  Windows are visited last to first and merged in place.
- **Finer target (5, 15, 30 minutes):** `k = 60 / minutes - 1` slots are inserted after every
  hourly anchor, the last one included. On the axis they are spaced by the interval. In the
  entry lists they are filled by LOCF (copy of the anchor before), by NOCB, or left empty.
  As written, NOCB copies the entry after the insertion point, which for the last anchor is
  one past the end of the list, so it raises IndexError (see "## Findings"); the model's
  corrected reading copies the anchor after and leaves the slots after the last anchor empty.
  After each anchor's insertions `_linear_interpolate` fills every empty slot that has a
  non-empty slot after it, lerping repeatedly from the slot before towards that next
  non-empty slot. The model runs this pass once, after all insertions; the two agree when no
  original entry is empty (see "## Left out").

Modules, one file each, following the source:

- `schemas.dfy` (`Schemas`): values, entries, the three enumerations, the response, and the
  interval order.
- `windows.dfy` (`Windows`): the range-collecting loop and the windows it produces.
- `average.dfy` (`Average`): `_weighted_average`.
- `downsample.dfy` (`Downsample`): the reverse merge-and-delete loop.
- `upsample.dfy` (`Upsample`): the reverse insertion loops.
- `interpolate.dfy` (`Interpolate`): `_linear_interpolate` with its inner `lerp`, and the
  closed form of the iterated lerp.
- `fill.dfy` (`Fill`): what the linear pass makes of an upsampled list.
- `resampler.dfy` (`Resampler`): `resample_data` as a function, and the same loops, run
  asset by asset, as methods.
- `feeder.dfy` (`Feeder`): the feeder of the schedule compliance tests, averaged to a day and
  upsampled to quarter hours.

Python exceptions become the `Raised` result. That covers KeyError from a missing variable,
TypeError from summing `None`, AttributeError from reading a phase of a float, and
IndexError. Timestamps are integer seconds. Floats are `real`. The delta of a coarse interval
is a parameter `shift`, required to move every instant strictly later.

## Model

| member | source | states |
|---|---|---|
| Schemas.Rank | idp_schedule_provider/forecaster/schemas.py:83-90 | the seven intervals get ranks 0 to 6 in declaration order, which is their order by duration, and the hour is exactly rank 3 |
| Schemas.RankIsStrictTotalOrder | idp_schedule_provider/forecaster/schemas.py:83-90 | two intervals are equal exactly when their ranks are, and two distinct intervals compare one way and not the other |
| Schemas.CoarserThanHour | idp_schedule_provider/forecaster/resampler.py:30-49 | exactly day, month and year take the downsampling branch, and exactly the three minute intervals take the upsampling branch |
| Schemas.Minutes | idp_schedule_provider/forecaster/resampler.py:50-52 | a sub-hour interval's minutes lie strictly between 0 and 60 and divide 60 |
| Schemas.InsertCount | idp_schedule_provider/forecaster/resampler.py:52 | `round(60 / minutes) - 1` is at least 1, and k + 1 slots of the interval make exactly one hour, so the rounding never changes the count |
| Schemas.StrEnumOrderMisroutes | idp_schedule_provider/forecaster/schemas.py:83-90 | when the enum is compared by its string values, the day is not greater than the hour, and the quarter hour is greater than the hour |
| Windows.Split | idp_schedule_provider/forecaster/resampler.py:31-39 | the windows are non-empty, contiguous and disjoint, cover [0, n) from 0, and a window opens exactly at the first slot reaching its predecessor's start plus the delta |
| Windows.ScanShape | idp_schedule_provider/forecaster/resampler.py:35-39 | scanning from any slot, with the current window not yet broken, yields windows that tile the rest of the axis and follow the delta rule |
| Windows.BreaksDetermineWindows | idp_schedule_provider/forecaster/resampler.py:31-39 | any tiling that follows the delta rule is the one the loop collects, so the rule determines the windows uniquely |
| Windows.OnlyLastReachesEnd | idp_schedule_provider/forecaster/resampler.py:39 | every window but the last ends before the end of the axis |
| Windows.WindowWithinDelta | idp_schedule_provider/forecaster/resampler.py:36 | on an ascending axis every timestamp of a window lies in [start, start + delta) |
| Windows.CollectRanges | idp_schedule_provider/forecaster/resampler.py:31-39 | the range loop as written returns windows that tile the axis and follow the delta rule |
| Average.WeightedAverage | idp_schedule_provider/forecaster/resampler.py:77-94 | succeeds exactly when every variable of the first entry can be averaged: every later entry has it, and if its first value is a float all its values are floats, and if its first value is unbalanced all are unbalanced (a first value of `None` never raises); otherwise it raises. On success it keeps exactly the first entry's variables whose first value is not `None`, with the same shape |
| Average.MeanWithinBounds | idp_schedule_provider/forecaster/resampler.py:82-84 | a scalar mean lies between the least and the greatest value averaged |
| Average.UnbalancedWithinBounds | idp_schedule_provider/forecaster/resampler.py:85-92 | every phase of an unbalanced mean is present and lies between the least and the greatest value of that same phase over the window, each phase with its own bounds, an absent phase counting as 0 |
| Average.AbsentPhaseIsZero | idp_schedule_provider/forecaster/resampler.py:88-91 | a phase that is `None` in every entry of the window averages to `0.0`, not to `None` |
| Average.AverageIs | idp_schedule_provider/forecaster/resampler.py:77-94 | the weighted average is exactly the entry e when the first entry has e's variables and each of them averages to its value in e |
| Average.AverageOfRepeats | idp_schedule_provider/forecaster/resampler.py:77-94 | averaging copies of one complete entry gives that entry back |
| Downsample.MergeWindow | idp_schedule_provider/forecaster/resampler.py:42-48 | only the weighted average can raise; a merged window has no variable its first entry lacks; hold-first keeps the window's first entry |
| Downsample.Collapse | idp_schedule_provider/forecaster/resampler.py:41-48 | one entry per window when it does not raise; which windows make it raise and what each entry is are stated by Downsample.CollapseSpec |
| Downsample.CollapseSpec | idp_schedule_provider/forecaster/resampler.py:41-48 | raises exactly when some window's merge raises; otherwise yields one entry per window, the window's merge |
| Downsample.HoldFirstKeepsFirsts | idp_schedule_provider/forecaster/resampler.py:42-48 | with any mode other than the weighted average nothing raises, and each window keeps exactly the entry at its first slot |
| Downsample.CollapseRaises | idp_schedule_provider/forecaster/resampler.py:42-44 | one window whose average raises makes the whole downsampling raise |
| Downsample.DeleteMerged | idp_schedule_provider/forecaster/resampler.py:41-46 | deleting all but the first slot of each window, last window first, leaves exactly the first timestamps of the windows, in order |
| Downsample.MergeInPlace | idp_schedule_provider/forecaster/resampler.py:41-48 | the in-place merge loop on one asset equals the window-by-window collapse, and raises exactly when it does |
| Upsample.ExpandLength | idp_schedule_provider/forecaster/resampler.py:55-61 | with k slots after each of n anchors the list has n(k + 1) slots |
| Upsample.ExpandSize | idp_schedule_provider/forecaster/resampler.py:55-61 | the expanded list has exactly n(k + 1) slots |
| Upsample.AnchorAt | idp_schedule_provider/forecaster/resampler.py:55-69 | anchor j sits at index j(k + 1) of the expanded list |
| Upsample.GapSlotAt | idp_schedule_provider/forecaster/resampler.py:55-69 | slot i of anchor j's gap sits at index j(k + 1) + 1 + i |
| Upsample.InsertTimeGap | idp_schedule_provider/forecaster/resampler.py:58-61 | inserting t + k·step down to t + step, each right after the anchor t, leaves them in ascending order between the anchor and the rest |
| Upsample.InsertTimes | idp_schedule_provider/forecaster/resampler.py:55-61 | the reverse insertion loop leaves every anchor followed by its timestamp plus one, two, ..., k intervals, ascending |
| Upsample.InsertGap | idp_schedule_provider/forecaster/resampler.py:58-69 | k single inserts at one position, each reading its neighbour afresh, insert the whole gap at once; NOCB raises exactly when k > 0 and there is no slot after the anchor |
| Upsample.InsertEntries | idp_schedule_provider/forecaster/resampler.py:55-69 | as written, LOCF gives each anchor followed by k copies of it and the empty fill gives k empty slots; NOCB raises exactly when the list and k are non-empty |
| Interpolate.LerpEntry | idp_schedule_provider/forecaster/resampler.py:117-140 | building one slot raises exactly when the previous entry has a variable the next one lacks; otherwise the slot has exactly the previous entry's variables |
| Interpolate.NextFilled | idp_schedule_provider/forecaster/resampler.py:106-112 | the search finds the first non-empty slot at or after the start, and finds none exactly when every slot from there on is empty |
| Interpolate.FillFrom | idp_schedule_provider/forecaster/resampler.py:97-140 | the pass from slot idx on keeps the list's length, reading the last slot as the one before slot 0; what it writes is stated by Interpolate.FillRun and Interpolate.FillRaise |
| Interpolate.LinearFill | idp_schedule_provider/forecaster/resampler.py:97-140 | keeps the list's length and never changes a non-empty slot; the values it writes are stated by Interpolate.FillRun, Interpolate.FillRaise and Fill.LinearClosedForm |
| Interpolate.LinearFillKeeps | idp_schedule_provider/forecaster/resampler.py:97-112 | a successful pass leaves non-empty entries unchanged and empty slots with nothing non-empty after them empty |
| Interpolate.LerpNext | idp_schedule_provider/forecaster/resampler.py:114-115 | one lerp from the i-th point over the remaining m - i steps lands on the (i + 1)-th of the evenly spaced points from x to y |
| Interpolate.LerpValueStep | idp_schedule_provider/forecaster/resampler.py:118-138 | the step rule holds per value: for two floats, per phase for two unbalanced values when both phases are present, and `None` when the shapes differ |
| Interpolate.LerpEntryStep | idp_schedule_provider/forecaster/resampler.py:114-140 | the slot built from the i-th point of a gap and its right anchor is the (i + 1)-th point, for every variable |
| Interpolate.FillRun | idp_schedule_provider/forecaster/resampler.py:97-140 | when every slot from a on steps to a target list, given the slots before it, the pass yields that list |
| Interpolate.FillRaise | idp_schedule_provider/forecaster/resampler.py:117-120 | once the pass reaches an empty slot whose previous entry has a variable its next one lacks, it raises |
| Interpolate.NothingToFill | idp_schedule_provider/forecaster/resampler.py:97-112 | a list with no empty slot before a non-empty one is left unchanged |
| Fill.Pos | idp_schedule_provider/forecaster/resampler.py:55-58 | with k slots inserted after every anchor, slot i of anchor j's block (slot 0 being the anchor) sits at index j(k + 1) + i |
| Fill.LinearClosedForm | idp_schedule_provider/forecaster/resampler.py:97-140 | with no original entry empty, the j-th of the k slots between anchors p and q becomes p + (q - p) j / (k + 1) per variable; slots after the last anchor stay empty; it raises exactly when some anchor has a variable the next lacks |
| Fill.LocfUntouched | idp_schedule_provider/forecaster/resampler.py:63-72 | the linear pass leaves a LOCF list unchanged |
| Fill.NocbUntouched | idp_schedule_provider/forecaster/resampler.py:65-72 | the linear pass leaves the corrected NOCB list unchanged |
| Resampler.ResampleData | idp_schedule_provider/forecaster/resampler.py:26-74 | an empty axis or the hourly target returns the response unchanged; any result keeps the interval field and the asset names, and every list as long as the axis |
| Resampler.Downsampled | idp_schedule_provider/forecaster/resampler.py:30-48 | a downsampled response has one timestamp and one entry per window in every asset |
| Resampler.UpsampleEntries | idp_schedule_provider/forecaster/resampler.py:55-72 | one asset's list grows to n(k + 1) slots; the slots' contents under each method are stated by Resampler.LocfUpsample, Resampler.NocbUpsample and Resampler.LinearUpsample |
| Resampler.Upsampled | idp_schedule_provider/forecaster/resampler.py:49-72 | an upsampled response has n(k + 1) timestamps and as many entries in every asset |
| Resampler.DownsampleWindows | idp_schedule_provider/forecaster/resampler.py:30-48 | downsampling raises exactly when some window of some asset fails to merge; otherwise the axis is the window starts and asset entry w is window w's merge |
| Resampler.HoldFirstDownsample | idp_schedule_provider/forecaster/resampler.py:42-48 | hold-first downsampling never raises and keeps exactly the window-first timestamps and entries |
| Resampler.UpsampleAxis | idp_schedule_provider/forecaster/resampler.py:52-61 | the upsampled axis has n(k + 1) timestamps, and slot i of anchor j's block holds the anchor's timestamp plus i intervals |
| Resampler.LocfUpsample | idp_schedule_provider/forecaster/resampler.py:63-64 | with no entry empty, LOCF never raises and every slot of anchor j's block holds anchor j |
| Resampler.NocbUpsample | idp_schedule_provider/forecaster/resampler.py:65-66 | with no entry empty, corrected NOCB never raises: the anchors stay, the slots after anchor j hold anchor j + 1, and those after the last anchor are empty |
| Resampler.LinearUpsample | idp_schedule_provider/forecaster/resampler.py:67-72 | with no entry empty, the linear method raises exactly when some asset has an anchor with a variable the next lacks; otherwise the gaps hold the evenly spaced points and the slots after the last anchor are empty |
| Feeder.ThreeHourAverage | tests/compliance/test_schedule_compliance.py:223-251 | the feeder's rows at hours 0, 1 and 2 average to load 1410, generation 1590 and power factors 0.9 |
| Feeder.DailyAverageExample | tests/compliance/test_schedule_compliance.py:223-251 | the three hourly feeder rows downsample by weighted average to the single midnight row load 1410, generation 1590 |
| Feeder.FeederQuarter | tests/compliance/test_schedule_compliance.py:300-308 | the interpolated slots between the feeder rows at 01:00 and 02:00 are 1412.5, 1415, 1417.5 (load) and 1587.5, 1585, 1582.5 (generation), power factors 0.9 |
| Feeder.QuarterHourExample | tests/compliance/test_schedule_compliance.py:270-310 | the two feeder rows upsampled to 15 minutes give eight timestamps, the interpolated rows between them, and three empty entries at the end |
| Resampler.CollapseAll | idp_schedule_provider/forecaster/resampler.py:41-48 | merging every asset in place yields every asset's collapse, and raises exactly when one of them does |
| Resampler.UpsampleInPlace | idp_schedule_provider/forecaster/resampler.py:55-72 | one asset's insertion loop followed by a single linear pass gives the model's upsampled list for LOCF and the linear method, and raises under NOCB when there is anything to insert |
| Resampler.UpsampleAll | idp_schedule_provider/forecaster/resampler.py:55-72 | over all assets the loops give the model's result except under NOCB, which raises exactly when some asset has an entry |
| Resampler.DownsampleInPlace | idp_schedule_provider/forecaster/resampler.py:30-48 | the range loop, the reversed delete loop over the axis and the reversed merge-and-delete loop, run asset by asset, compute the downsampling branch |
| Resampler.UpsampleAllInPlace | idp_schedule_provider/forecaster/resampler.py:49-72 | the timestamp loop and the insertion loops, run asset by asset with a single linear pass each, compute the upsampling branch, except under NOCB, where they raise exactly when there is an asset |
| Resampler.ResampleInPlace | idp_schedule_provider/forecaster/resampler.py:26-74 | resample_data's loops, run asset by asset, agree with the model whenever they return; they raise where the model raises, or under NOCB upsampling with at least one asset |

## Left out

- The HTTP routes, the database queries that build the response, the ORM, configuration,
  authentication, seed data and tooling are not part of this model. The routes also reject
  some intervals before the resampler is called; the model accepts every interval.
- `TimeInterval.get_delta` is not defined in `schemas.py`. Calendar arithmetic for days,
  months and years is the parameter `shift`. It is required to move every instant later.
  Sub-hour deltas are their minutes times 60 seconds.
- Floats are exact `real`s; rounding of sums, divisions and lerps is not modelled.
- Which exception escapes is not modelled, only that one does. It depends on the iteration
  order of Python dicts, which Dafny maps do not have.
- `resample_data` mutates the response in place and returns the same object. The model
  returns a new value.
- Resampler.ResampleData: requires every asset list to be as long as the axis. Nothing in the response
  type enforces this, and the source relies on it without checking.
- Resampler.UpsampleEntries: departs from `idp_schedule_provider/forecaster/resampler.py:55-72`
  in two ways. It runs `_linear_interpolate` once, after all insertions, where the source runs
  it after each anchor's insertions; the two agree when no original entry is empty. Under NOCB
  it uses the corrected gaps (copies of the anchor after, nothing after the last anchor), so
  `[{x: 1}]` with one slot per anchor gives `[{x: 1}, {}]` where the source raises IndexError;
  the NOCB row under "## Findings" records this, and `Upsample.InsertEntries` models the
  source as written.
- Resampler.Upsampled: runs `_linear_interpolate` once after all insertions. The source runs it after
  the insertions for each anchor. With no original entry empty, the earlier runs fill only
  gaps the final run would fill with the same values. With empty original entries the two
  can differ; that case is outside the resampler's documented no-missing-data assumption.
- Resampler.ResampleInPlace: uses the same single linear pass per asset as Upsampled. It also visits
  the loops asset by asset where the source nests the asset loop inside the window or anchor
  loop; the assets never read each other, so only the order of effects differs.
- Resampler.UpsampleInPlace: runs `_linear_interpolate` once, after all of the asset's
  insertions, where the source runs it after the insertions for each anchor
  (`idp_schedule_provider/forecaster/resampler.py:71-72`). The two agree when no original entry is empty. With an empty
  original entry they can differ: LOCF on `[{x: 0}, {}, {x: 3}]` with one slot per anchor
  gives `0, 0, 1, 2, 3, 3` here and `0, 0, 1.5, 1.5, 3, 3` in the source.
- Resampler.UpsampleAll: inherits the single linear pass per asset from UpsampleInPlace.
- Resampler.UpsampleAllInPlace: inherits the single linear pass per asset from
  UpsampleInPlace. It also grows the axis first and then each asset in turn, where the source
  grows the axis and every asset inside each anchor's step (`idp_schedule_provider/forecaster/resampler.py:55-72`); the assets
  never read each other, so only the order of effects differs.
- Resampler.DownsampleInPlace: deletes from the axis for every window first and then merges
  and deletes each asset's windows in turn, where the source averages every asset, deletes
  from the axis and deletes from every asset inside each window's step
  (`idp_schedule_provider/forecaster/resampler.py:41-48`). The assets never read each other and the axis is not read by the
  merges, so only the order of effects differs.
- Resampler.LocfUpsample: assumes no original entry is empty. With empty entries the linear pass
  would also fill some LOCF copies.
- Resampler.NocbUpsample: assumes no original entry is empty, as LocfUpsample does.
- Resampler.LinearUpsample: the closed form assumes no original entry is empty. With empty anchors the
  pass interpolates across several anchors, and at index 0 it reads the last entry.
  `Interpolate.FillFrom` models both; only the closed form assumes them away.

## Findings

| source | as written | input that shows it | evidently intended | confidence | as-written member | corrected member |
|---|---|---|---|---|---|---|
| idp_schedule_provider/forecaster/resampler.py:65-66 | NOCB inserts `entries[pos_to_update]`; for the last anchor `pos_to_update` equals the list's length | any upsampling (e.g. 15 minutes) with NOCB and one asset with one entry: the first read is one past the end and raises IndexError | the slots after the last anchor have no next observation and stay empty | high; not executed | Upsample.InsertEntries | Resampler.NocbUpsample |
| idp_schedule_provider/forecaster/schemas.py:83-90 | `TimeInterval` is a `(str, Enum)` with no ordering of its own, so `>` and `<` compare the string values | `DAY_1 > HOUR_1` is false because "1 day" sorts before "1 hour"; `MIN_15 > HOUR_1` is true because "15 minutes" sorts after "1 hour" | intervals compare by duration, as the branches assume | low: the compliance tests expect duration order (`tests/compliance/test_schedule_compliance.py:223-251` downsamples `DAY_1` and `MONTH_1`, `tests/compliance/test_schedule_compliance.py:270-310` upsamples `MIN_15`), and this `schemas.py` lacks `get_delta`, which the resampler calls, and `GetScenariosResponseModel` and `FeederID`, which `controller.py` and `routes.py` use, so the enum the resampler runs with is probably a later one that orders by duration; not executed | Schemas.StrEnumOrderMisroutes | Schemas.CoarserThanHour |

=== FILE: average.dfy ===
/**
 `_weighted_average`: collapsing one window of entries into a single entry by
 taking, per variable, the arithmetic mean of the window's values.
 */
module Average {
  import opened Schemas

  /** Python's `x or 0` on an optional float. */
  function OrZero(o: Option<real>): real
  {
    match o
    case Some(x) => x
    case None => 0.0
  }

  /** The number a scalar contributes to a sum. */
  function ScalarPart(v: Value): real
  {
    if v.Scalar? then OrZero(v.num) else 0.0
  }

  /** The number phase A, B or C of an unbalanced value contributes to a sum,
      an absent phase counting as zero. */
  function PhaseA(v: Value): real
  {
    if v.Unbalanced? then OrZero(v.a) else 0.0
  }

  function PhaseB(v: Value): real
  {
    if v.Unbalanced? then OrZero(v.b) else 0.0
  }

  function PhaseC(v: Value): real
  {
    if v.Unbalanced? then OrZero(v.c) else 0.0
  }

  /** Every entry of the window has variable `x`. */
  predicate AllHave(w: seq<Entry>, x: string)
  {
    forall k :: 0 <= k < |w| ==> x in w[k]
  }

  /** The sum over the window of one numeric part of variable `x`. */
  function Sum(w: seq<Entry>, x: string, part: Value -> real): real
    requires AllHave(w, x)
  {
    if |w| == 0 then 0.0 else part(w[0][x]) + Sum(w[1..], x, part)
  }

  /** The window's values of `x` are all present floats. */
  predicate AllNumbers(w: seq<Entry>, x: string)
    requires AllHave(w, x)
  {
    forall k :: 0 <= k < |w| ==> w[k][x].Scalar? && w[k][x].num.Some?
  }

  /** The window's values of `x` are all unbalanced records. */
  predicate AllUnbalanced(w: seq<Entry>, x: string)
    requires AllHave(w, x)
  {
    forall k :: 0 <= k < |w| ==> w[k][x].Unbalanced?
  }

  /** Averaging variable `x` of the window does not raise: every entry has the
      variable (else KeyError), and when the first value is a float they all
      are (else TypeError in `sum`), and when it is unbalanced they all are
      (else AttributeError on `.A`). A first value of `None` is skipped. */
  predicate Averageable(w: seq<Entry>, x: string)
    requires |w| > 0 && x in w[0]
  {
    && AllHave(w, x)
    && (w[0][x] == Scalar(None) || AllNumbers(w, x) || AllUnbalanced(w, x))
  }

  /** The mean of variable `x` over the window, or None when its first value
      is `None` and the variable is dropped. */
  function MeanOf(w: seq<Entry>, x: string): Option<Value>
    requires |w| > 0 && x in w[0] && AllHave(w, x)
  {
    var n := |w| as real;
    match w[0][x]
    case Scalar(None) => None
    case Scalar(Some(_)) => Some(Scalar(Some(Sum(w, x, ScalarPart) / n)))
    case Unbalanced(_, _, _) =>
      Some(Unbalanced(Some(Sum(w, x, PhaseA) / n), Some(Sum(w, x, PhaseB) / n), Some(Sum(w, x, PhaseC) / n)))
  }

  /** `_weighted_average` of a non-empty window. It raises exactly when some
      variable of the first entry cannot be averaged; otherwise it keeps the
      first entry's variables except those whose first value is `None`. */
  function WeightedAverage(w: seq<Entry>): (r: Result<Entry>)
    requires |w| > 0
    ensures r.Ok? <==> forall x :: x in w[0] ==> Averageable(w, x)
    ensures r.Ok? ==> r.value.Keys <= w[0].Keys
    ensures r.Ok? ==> forall x :: x in w[0] ==> (x in r.value <==> w[0][x] != Scalar(None))
    ensures r.Ok? ==> forall x :: x in r.value ==> (r.value[x].Scalar? <==> w[0][x].Scalar?)
  {
    if forall x :: x in w[0] ==> Averageable(w, x) then
      Ok(map x | x in w[0] && w[0][x] != Scalar(None) :: MeanOf(w, x).value)
    else Raised
  }

  /** A sum of parts that all lie in [lo, hi] lies in [n * lo, n * hi]. */
  lemma {:induction false} SumBounds(w: seq<Entry>, x: string, part: Value -> real, lo: real, hi: real)
    requires AllHave(w, x)
    requires forall k :: 0 <= k < |w| ==> lo <= part(w[k][x]) <= hi
    ensures (|w| as real) * lo <= Sum(w, x, part) <= (|w| as real) * hi
  {
    if |w| > 0 {
      assert forall k :: 0 <= k < |w| - 1 ==> w[1..][k] == w[k + 1];
      SumBounds(w[1..], x, part, lo, hi);
      assert (|w| as real) * lo == lo + ((|w| - 1) as real) * lo;
      assert (|w| as real) * hi == hi + ((|w| - 1) as real) * hi;
    }
  }

  /** Dividing bounds of the form [n * lo, n * hi] by n gives [lo, hi]. */
  lemma DivideBounds(s: real, n: real, lo: real, hi: real)
    requires n > 0.0
    requires n * lo <= s <= n * hi
    ensures lo <= s / n <= hi
  {
    assert s / n * n == s;
  }

  /** The mean of a scalar variable lies between the smallest and the largest
      value averaged: a window whose values of `x` all lie in [lo, hi]
      averages to a value in [lo, hi]. */
  lemma MeanWithinBounds(w: seq<Entry>, x: string, lo: real, hi: real)
    requires |w| > 0
    requires WeightedAverage(w).Ok?
    requires x in WeightedAverage(w).value && w[0][x].Scalar?
    requires forall k :: 0 <= k < |w| ==> x in w[k] && lo <= ScalarPart(w[k][x]) <= hi
    ensures WeightedAverage(w).value[x].Scalar?
    ensures WeightedAverage(w).value[x].num.Some?
    ensures lo <= WeightedAverage(w).value[x].num.value <= hi
  {
    AverageAt(w, x);
    SumWithinBounds(w, x, ScalarPart, lo, hi);
    assert WeightedAverage(w).value[x] == Scalar(Some(Sum(w, x, ScalarPart) / (|w| as real)));
  }

  /** A sum of parts over n entries, divided by n, stays within the bounds
      of its parts. */
  lemma SumWithinBounds(w: seq<Entry>, x: string, part: Value -> real, lo: real, hi: real)
    requires |w| > 0 && AllHave(w, x)
    requires forall k :: 0 <= k < |w| ==> lo <= part(w[k][x]) <= hi
    ensures lo <= Sum(w, x, part) / (|w| as real) <= hi
  {
    SumBounds(w, x, part, lo, hi);
    DivideBounds(Sum(w, x, part), |w| as real, lo, hi);
  }

  /** Each phase of an unbalanced mean is present, and lies between the
      smallest and the largest value of that phase over the window, an
      absent phase counting as zero; each phase has bounds of its own. */
  lemma UnbalancedWithinBounds(w: seq<Entry>, x: string,
                               loA: real, hiA: real, loB: real, hiB: real, loC: real, hiC: real)
    requires |w| > 0
    requires WeightedAverage(w).Ok?
    requires x in WeightedAverage(w).value && w[0][x].Unbalanced?
    requires forall k :: 0 <= k < |w| ==> x in w[k] && loA <= PhaseA(w[k][x]) <= hiA
    requires forall k :: 0 <= k < |w| ==> x in w[k] && loB <= PhaseB(w[k][x]) <= hiB
    requires forall k :: 0 <= k < |w| ==> x in w[k] && loC <= PhaseC(w[k][x]) <= hiC
    ensures WeightedAverage(w).value[x].Unbalanced?
    ensures WeightedAverage(w).value[x].a.Some? && loA <= WeightedAverage(w).value[x].a.value <= hiA
    ensures WeightedAverage(w).value[x].b.Some? && loB <= WeightedAverage(w).value[x].b.value <= hiB
    ensures WeightedAverage(w).value[x].c.Some? && loC <= WeightedAverage(w).value[x].c.value <= hiC
  {
    AverageAt(w, x);
    var n := |w| as real;
    SumWithinBounds(w, x, PhaseA, loA, hiA);
    SumWithinBounds(w, x, PhaseB, loB, hiB);
    SumWithinBounds(w, x, PhaseC, loC, hiC);
    assert WeightedAverage(w).value[x]
        == Unbalanced(Some(Sum(w, x, PhaseA) / n), Some(Sum(w, x, PhaseB) / n), Some(Sum(w, x, PhaseC) / n));
  }

  /** A phase that is `None` in every entry of the window averages to zero:
      `x or 0` turns each absent phase into 0 before summing. */
  lemma AbsentPhaseIsZero(w: seq<Entry>, x: string)
    requires |w| > 0
    requires WeightedAverage(w).Ok?
    requires x in WeightedAverage(w).value && w[0][x].Unbalanced?
    ensures (forall k :: 0 <= k < |w| ==> x in w[k] && w[k][x].a == None) ==>
      WeightedAverage(w).value[x].a == Some(0.0)
    ensures (forall k :: 0 <= k < |w| ==> x in w[k] && w[k][x].b == None) ==>
      WeightedAverage(w).value[x].b == Some(0.0)
    ensures (forall k :: 0 <= k < |w| ==> x in w[k] && w[k][x].c == None) ==>
      WeightedAverage(w).value[x].c == Some(0.0)
  {
    AbsentA(w, x);
    AbsentB(w, x);
    AbsentC(w, x);
  }

  /** Phase A of AbsentPhaseIsZero. */
  lemma AbsentA(w: seq<Entry>, x: string)
    requires |w| > 0
    requires WeightedAverage(w).Ok?
    requires x in WeightedAverage(w).value && w[0][x].Unbalanced?
    ensures (forall k :: 0 <= k < |w| ==> x in w[k] && w[k][x].a == None) ==>
      WeightedAverage(w).value[x].a == Some(0.0)
  {
    var v := UnbalancedMean(w, x);
    if forall k :: 0 <= k < |w| ==> x in w[k] && w[k][x].a == None {
      ZeroPhase(w, x, PhaseA);
    }
  }

  /** Phase B of AbsentPhaseIsZero. */
  lemma AbsentB(w: seq<Entry>, x: string)
    requires |w| > 0
    requires WeightedAverage(w).Ok?
    requires x in WeightedAverage(w).value && w[0][x].Unbalanced?
    ensures (forall k :: 0 <= k < |w| ==> x in w[k] && w[k][x].b == None) ==>
      WeightedAverage(w).value[x].b == Some(0.0)
  {
    var v := UnbalancedMean(w, x);
    if forall k :: 0 <= k < |w| ==> x in w[k] && w[k][x].b == None {
      ZeroPhase(w, x, PhaseB);
    }
  }

  /** Phase C of AbsentPhaseIsZero. */
  lemma AbsentC(w: seq<Entry>, x: string)
    requires |w| > 0
    requires WeightedAverage(w).Ok?
    requires x in WeightedAverage(w).value && w[0][x].Unbalanced?
    ensures (forall k :: 0 <= k < |w| ==> x in w[k] && w[k][x].c == None) ==>
      WeightedAverage(w).value[x].c == Some(0.0)
  {
    var v := UnbalancedMean(w, x);
    if forall k :: 0 <= k < |w| ==> x in w[k] && w[k][x].c == None {
      ZeroPhase(w, x, PhaseC);
    }
  }

  /** An unbalanced variable the average keeps is the record of its three
      phase means. */
  lemma UnbalancedMean(w: seq<Entry>, x: string) returns (v: Value)
    requires |w| > 0
    requires WeightedAverage(w).Ok?
    requires x in WeightedAverage(w).value && w[0][x].Unbalanced?
    ensures AllHave(w, x) && AllUnbalanced(w, x)
    ensures v == WeightedAverage(w).value[x]
    ensures v == Unbalanced(Some(Sum(w, x, PhaseA) / (|w| as real)), Some(Sum(w, x, PhaseB) / (|w| as real)),
                            Some(Sum(w, x, PhaseC) / (|w| as real)))
  {
    AverageAt(w, x);
    v := WeightedAverage(w).value[x];
  }

  /** A part that is zero in every entry sums to zero. */
  lemma ZeroPhase(w: seq<Entry>, x: string, part: Value -> real)
    requires AllHave(w, x)
    requires forall k :: 0 <= k < |w| ==> part(w[k][x]) == 0.0
    ensures Sum(w, x, part) == 0.0
  {
    SumOfConstant(w, x, part, 0.0);
  }

  /** A variable the average keeps is the mean of that variable over the
      window. */
  lemma AverageAt(w: seq<Entry>, x: string)
    requires |w| > 0
    requires WeightedAverage(w).Ok? && x in WeightedAverage(w).value
    ensures x in w[0] && AllHave(w, x)
    ensures MeanOf(w, x) == Some(WeightedAverage(w).value[x])
  {
  }

  /** A sum of n equal parts is n times that part. */
  lemma {:induction false} SumOfConstant(w: seq<Entry>, x: string, part: Value -> real, c: real)
    requires AllHave(w, x)
    requires forall k :: 0 <= k < |w| ==> part(w[k][x]) == c
    ensures Sum(w, x, part) == (|w| as real) * c
  {
    if |w| > 0 {
      assert forall k :: 0 <= k < |w| - 1 ==> w[1..][k] == w[k + 1];
      SumOfConstant(w[1..], x, part, c);
    }
  }

  /** An entry is complete when no scalar and no phase is `None`. */
  predicate Complete(e: Entry)
  {
    forall x :: x in e ==>
      match e[x]
      case Scalar(v) => v.Some?
      case Unbalanced(a, b, c) => a.Some? && b.Some? && c.Some?
  }

  /** The weighted average is the entry e when the first entry has exactly
      e's variables and each of them averages to its value in e. */
  lemma AverageIs(w: seq<Entry>, e: Entry)
    requires |w| > 0 && w[0].Keys == e.Keys
    requires forall x :: x in e ==> x in w[0] && Averageable(w, x) && MeanOf(w, x) == Some(e[x])
    ensures WeightedAverage(w) == Ok(e)
  {
    forall x | x in e
      ensures w[0][x] != Scalar(None)
    {
      assert MeanOf(w, x).Some?;
    }
    var r := WeightedAverage(w);
    assert r.Ok?;
    assert r.value.Keys == e.Keys;
    assert forall x :: x in e ==> r.value[x] == e[x];
    assert r.value == e;
  }

  /** One variable of a window of copies of a complete entry. */
  lemma RepeatVariable(w: seq<Entry>, e: Entry, x: string)
    requires |w| > 0
    requires forall k :: 0 <= k < |w| ==> w[k] == e
    requires Complete(e) && x in e
    ensures x in w[0] && Averageable(w, x) && MeanOf(w, x) == Some(e[x])
  {
    var n := |w| as real;
    assert w[0] == e;
    assert AllHave(w, x);
    match e[x]
    case Scalar(v) =>
      SumOfConstant(w, x, ScalarPart, v.value);
      assert Sum(w, x, ScalarPart) / n == v.value;
    case Unbalanced(a, b, c) =>
      SumOfConstant(w, x, PhaseA, a.value);
      SumOfConstant(w, x, PhaseB, b.value);
      SumOfConstant(w, x, PhaseC, c.value);
      assert Sum(w, x, PhaseA) / n == a.value;
      assert Sum(w, x, PhaseB) / n == b.value;
      assert Sum(w, x, PhaseC) / n == c.value;
  }

  /** Averaging a window of copies of one complete entry gives that entry
      back: the weighted average is idempotent on a constant series. */
  lemma AverageOfRepeats(w: seq<Entry>, e: Entry)
    requires |w| > 0
    requires forall k :: 0 <= k < |w| ==> w[k] == e
    requires Complete(e)
    ensures WeightedAverage(w) == Ok(e)
  {
    assert w[0] == e;
    forall x | x in e
      ensures x in w[0] && Averageable(w, x) && MeanOf(w, x) == Some(e[x])
    {
      RepeatVariable(w, e, x);
    }
    AverageIs(w, e);
  }
}

=== FILE: downsample.dfy ===
/**
 The second phase of downsampling: every window collapses into its first
 slot, which keeps the first entry (hold-first) or takes the window's
 weighted average, and the rest of the window is deleted.
 */
module Downsample {
  import opened Schemas
  import opened Windows
  import opened Average

  /** The value at each window's first slot. */
  function Firsts<T>(s: seq<T>, ws: seq<Range>): seq<T>
    requires forall w :: 0 <= w < |ws| ==> ws[w].start < |s|
  {
    seq(|ws|, w requires 0 <= w < |ws| => s[ws[w].start])
  }

  /** What one window of an asset's entries collapses to under the sampling
      mode. Every mode other than the weighted average only deletes, so the
      first entry is held. */
  function MergeWindow(entries: seq<Entry>, rg: Range, mode: SamplingMode): (r: Result<Entry>)
    requires rg.start < rg.stop <= |entries|
    ensures r.Raised? ==> mode == WeightedAverage
    ensures r.Ok? ==> r.value.Keys <= entries[rg.start].Keys
    ensures mode == HoldFirst ==> r == Ok(entries[rg.start])
  {
    if mode == WeightedAverage then Average.WeightedAverage(entries[rg.start..rg.stop])
    else Ok(entries[rg.start])
  }

  /** An asset's entries collapsed window by window: one entry per window,
      or Raised as soon as a window's merge raises. */
  function Collapse(entries: seq<Entry>, ws: seq<Range>, mode: SamplingMode): (r: Result<seq<Entry>>)
    requires forall w :: 0 <= w < |ws| ==> ws[w].start < ws[w].stop <= |entries|
    ensures r.Ok? ==> |r.value| == |ws|
  {
    if |ws| == 0 then Ok([])
    else
      match MergeWindow(entries, ws[0], mode)
      case Raised => Raised
      case Ok(e) =>
        match Collapse(entries, ws[1..], mode)
        case Raised => Raised
        case Ok(rest) => Ok([e] + rest)
  }

  /** The collapse raises exactly when some window's merge raises, and
      otherwise holds each window's merge in window order. */
  lemma {:induction false} CollapseSpec(entries: seq<Entry>, ws: seq<Range>, mode: SamplingMode)
    requires forall w :: 0 <= w < |ws| ==> ws[w].start < ws[w].stop <= |entries|
    ensures Collapse(entries, ws, mode).Ok? <==>
      forall w :: 0 <= w < |ws| ==> MergeWindow(entries, ws[w], mode).Ok?
    ensures Collapse(entries, ws, mode).Ok? ==>
      forall w :: 0 <= w < |ws| ==>
        Collapse(entries, ws, mode).value[w] == MergeWindow(entries, ws[w], mode).value
  {
    if |ws| > 0 {
      assert forall w :: 0 <= w < |ws| - 1 ==> ws[1..][w] == ws[w + 1];
      CollapseSpec(entries, ws[1..], mode);
      if Collapse(entries, ws, mode).Ok? {
        forall w | 0 <= w < |ws|
          ensures Collapse(entries, ws, mode).value[w] == MergeWindow(entries, ws[w], mode).value
        {
          if w > 0 {
            assert ws[1..][w - 1] == ws[w];
          }
        }
      }
    }
  }

  /** Holding the first value never raises and keeps exactly the entry at
      each window's first slot; every other input entry is dropped. */
  lemma HoldFirstKeepsFirsts(entries: seq<Entry>, ws: seq<Range>)
    requires forall w :: 0 <= w < |ws| ==> ws[w].start < ws[w].stop <= |entries|
    ensures Collapse(entries, ws, HoldFirst) == Ok(Firsts(entries, ws))
  {
    var r := Collapse(entries, ws, HoldFirst);
    CollapseSpec(entries, ws, HoldFirst);
    assert r.Ok?;
    assert r.value == Firsts(entries, ws);
  }

  /** Where the part of the list not yet visited ends, once windows j.. have
      been collapsed: the start of window j, or the end of the axis. */
  function Front(ws: seq<Range>, j: nat, n: nat): nat
    requires j <= |ws|
  {
    if j == |ws| then n else ws[j].start
  }

  /** The window visited at step j ends at the front left by step j + 1. */
  lemma WindowEndsAtFront(ws: seq<Range>, n: nat, j: nat)
    requires Tiles(ws, n)
    requires j < |ws|
    ensures ws[j].stop == Front(ws, j + 1, n)
    ensures Front(ws, j + 1, n) <= n
  {
  }

  /** Overwriting slot `start` of an unvisited prefix (followed by the
      collapsed suffix) with `x` and deleting [start + 1, stop) leaves `x` at
      `start` as the suffix's new head. */
  lemma DeleteStep<T>(r: seq<T>, s: seq<T>, done: seq<T>, start: nat, stop: nat, x: T)
    requires start < stop <= |s|
    requires r == s[..stop] + done
    ensures r[start := x][..start + 1] + r[start := x][stop..] == s[..start] + ([x] + done)
  {
    var u := r[start := x];
    assert u[..start + 1] == s[..start] + [x];
    assert u[stop..] == done;
  }

  /** One raising window makes the whole collapse raise. */
  lemma CollapseRaises(entries: seq<Entry>, ws: seq<Range>, mode: SamplingMode, j: nat)
    requires forall w :: 0 <= w < |ws| ==> ws[w].start < ws[w].stop <= |entries|
    requires j < |ws|
    requires MergeWindow(entries, ws[j], mode).Raised?
    ensures Collapse(entries, ws, mode) == Raised
  {
    CollapseSpec(entries, ws, mode);
  }

  /** The deletion loop of resample_data as written, for the time axis (and
      for any list under hold-first): windows are visited last to first and
      all but the first slot of each is deleted, so that earlier windows'
      indices stay valid. */
  method DeleteMerged<T>(s: seq<T>, ws: seq<Range>) returns (r: seq<T>)
    requires Tiles(ws, |s|)
    ensures |r| == |ws|
    ensures forall w :: 0 <= w < |ws| ==> r[w] == s[ws[w].start]
  {
    r := s;
    var j := |ws|;
    ghost var done: seq<T> := [];
    while j > 0
      invariant 0 <= j <= |ws|
      invariant |done| == |ws| - j
      invariant forall w :: j <= w < |ws| ==> done[w - j] == s[ws[w].start]
      invariant Front(ws, j, |s|) <= |s|
      invariant r == s[..Front(ws, j, |s|)] + done
    {
      j := j - 1;
      var start, stop := ws[j].start, ws[j].stop;
      WindowIntact(s, ws, j, done, r);
      DeleteVisit(s, ws, j, done, r, s[start]);
      WriteBack(r, start);
      r := r[..start + 1] + r[stop..];
      done := [s[start]] + done;
    }
  }

  /** One visit of a deletion loop: with the windows after j already
      reduced to one slot each, overwriting the first slot of window j with x
      and deleting the rest of the window reduces it too. */
  lemma DeleteVisit<T>(s: seq<T>, ws: seq<Range>, j: nat, done: seq<T>, r: seq<T>, x: T)
    requires Tiles(ws, |s|) && j < |ws|
    requires Front(ws, j + 1, |s|) <= |s|
    requires r == s[..Front(ws, j + 1, |s|)] + done
    ensures Front(ws, j, |s|) <= |s|
    ensures ws[j].start < ws[j].stop <= |r|
    ensures r[ws[j].start := x][..ws[j].start + 1] + r[ws[j].start := x][ws[j].stop..]
         == s[..Front(ws, j, |s|)] + ([x] + done)
  {
    WindowEndsAtFront(ws, |s|, j);
    DeleteStep(r, s, done, ws[j].start, ws[j].stop, x);
  }

  /** Writing a slot's own value back changes nothing. */
  lemma WriteBack<T>(r: seq<T>, i: nat)
    requires i < |r|
    ensures r[i := r[i]] == r
  {
  }

  /** Collapsing the windows from j on merges window j in front of the
      collapse of the windows after it. */
  lemma CollapseCons(entries: seq<Entry>, ws: seq<Range>, mode: SamplingMode, j: nat, done: seq<Entry>)
    requires forall w :: 0 <= w < |ws| ==> ws[w].start < ws[w].stop <= |entries|
    requires j < |ws|
    requires MergeWindow(entries, ws[j], mode).Ok?
    requires Collapse(entries, ws[j + 1..], mode) == Ok(done)
    ensures Collapse(entries, ws[j..], mode) == Ok([MergeWindow(entries, ws[j], mode).value] + done)
  {
    assert ws[j..][0] == ws[j];
    assert ws[j..][1..] == ws[j + 1..];
  }

  /** Before visiting window j, a deletion loop has not touched it. */
  lemma WindowIntact<T>(entries: seq<T>, ws: seq<Range>, j: nat, done: seq<T>, s: seq<T>)
    requires Tiles(ws, |entries|) && j < |ws|
    requires Front(ws, j + 1, |entries|) <= |entries|
    requires s == entries[..Front(ws, j + 1, |entries|)] + done
    ensures ws[j].start < ws[j].stop <= |s|
    ensures s[ws[j].start..ws[j].stop] == entries[ws[j].start..ws[j].stop]
    ensures s[ws[j].start] == entries[ws[j].start]
  {
    WindowEndsAtFront(ws, |entries|, j);
  }

  /** A window of the unvisited prefix whose average raises makes the whole
      collapse raise. */
  lemma AverageRaises(entries: seq<Entry>, ws: seq<Range>, mode: SamplingMode, j: nat,
                      done: seq<Entry>, s: seq<Entry>)
    requires mode == WeightedAverage
    requires Tiles(ws, |entries|) && j < |ws|
    requires Front(ws, j + 1, |entries|) <= |entries|
    requires s == entries[..Front(ws, j + 1, |entries|)] + done
    requires ws[j].start < ws[j].stop <= |s|
    requires Average.WeightedAverage(s[ws[j].start..ws[j].stop]).Raised?
    ensures Collapse(entries, ws, mode) == Raised
  {
    WindowIntact(entries, ws, j, done, s);
    CollapseRaises(entries, ws, mode, j);
  }

  /** The merging loop of resample_data as written, for one asset's entries:
      windows are visited last to first; under the weighted average the
      window's first slot is overwritten with the average of the window, then
      the rest of the window is deleted. It computes the window-by-window
      collapse, raising exactly when some window's average raises. */
  method MergeInPlace(entries: seq<Entry>, ws: seq<Range>, mode: SamplingMode) returns (r: Result<seq<Entry>>)
    requires Tiles(ws, |entries|)
    ensures r == Collapse(entries, ws, mode)
  {
    var s := entries;
    var j := |ws|;
    ghost var done: seq<Entry> := [];
    while j > 0
      invariant 0 <= j <= |ws|
      invariant Collapse(entries, ws[j..], mode) == Ok(done)
      invariant Front(ws, j, |entries|) <= |entries|
      invariant s == entries[..Front(ws, j, |entries|)] + done
    {
      j := j - 1;
      var start, stop := ws[j].start, ws[j].stop;
      WindowIntact(entries, ws, j, done, s);
      if mode == WeightedAverage {
        var avg := Average.WeightedAverage(s[start..stop]);
        if avg.Raised? {
          AverageRaises(entries, ws, mode, j, done, s);
          return Raised;
        }
        CollapseCons(entries, ws, mode, j, done);
        DeleteVisit(entries, ws, j, done, s, avg.value);
        s := s[start := avg.value];
        done := [avg.value] + done;
      } else {
        CollapseCons(entries, ws, mode, j, done);
        DeleteVisit(entries, ws, j, done, s, s[start]);
        WriteBack(s, start);
        done := [s[start]] + done;
      }
      s := s[..start + 1] + s[stop..];
    }
    assert Front(ws, 0, |entries|) == 0;
    assert s == done;
    assert ws[0..] == ws;
    r := Ok(s);
  }
}

=== FILE: feeder.dfy ===
/**
 The feeder of the schedule compliance tests: its hourly rows, their daily
 weighted average, and the same rows upsampled to quarter hours.
 */
module Feeder {
  import opened Schemas
  import opened Windows
  import opened Downsample
  import opened Upsample
  import opened Interpolate
  import opened Fill
  import opened Resampler
  import opened Average

  /** The feeder row of the compliance test at hour `h` (0, 1 or 2). */
  function FeederHour(h: real): Entry
  {
    map["generation" := Scalar(Some(1600.0 - 10.0 * h)), "generation_pf" := Scalar(Some(0.9)),
        "load" := Scalar(Some(1400.0 + 10.0 * h)), "load_pf" := Scalar(Some(0.9))]
  }

  /** A three-entry sum spelled out. */
  lemma SumOfThree(w: seq<Entry>, x: string, part: Value -> real)
    requires |w| == 3 && AllHave(w, x)
    ensures Sum(w, x, part) == part(w[0][x]) + part(w[1][x]) + part(w[2][x])
  {
    var w1, w2 := w[1..], w[1..][1..];
    assert w1[0] == w[1] && w2[0] == w[2] && w2[1..] == [];
    assert Sum(w2, x, part) == part(w[2][x]);
    assert Sum(w1, x, part) == part(w[1][x]) + Sum(w2, x, part);
  }

  /** The daily weighted average of the three hourly feeder rows of the
      compliance test: load 1400, 1410, 1420 averages to 1410 and generation
      1600, 1590, 1580 to 1590, while the power factors stay 0.9. */
  lemma ThreeHourAverage()
    ensures Average.WeightedAverage([FeederHour(0.0), FeederHour(1.0), FeederHour(2.0)])
         == Ok(FeederHour(1.0))
  {
    var w := [FeederHour(0.0), FeederHour(1.0), FeederHour(2.0)];
    var e := FeederHour(1.0);
    var names := {"generation", "generation_pf", "load", "load_pf"};
    assert w[0].Keys == names && e.Keys == names;
    forall x | x in e ensures x in w[0] && Averageable(w, x) && MeanOf(w, x) == Some(e[x]) {
      ThreeHourVariable(x);
    }
    AverageIs(w, e);
  }

  /** One variable of the example above. */
  lemma ThreeHourVariable(x: string)
    requires x in FeederHour(1.0)
    ensures var w := [FeederHour(0.0), FeederHour(1.0), FeederHour(2.0)];
      Averageable(w, x) && MeanOf(w, x) == Some(FeederHour(1.0)[x])
  {
    var w := [FeederHour(0.0), FeederHour(1.0), FeederHour(2.0)];
    assert AllHave(w, x) && AllNumbers(w, x);
    SumOfThree(w, x, ScalarPart);
  }

  /** The feeder's hourly rows at 00:00, 01:00 and 02:00 collapse into one
      daily row holding their average, stamped at midnight. */
  lemma DailyAverageExample(shift: Time -> Time)
    requires Advances(shift) && shift(0) > 7200
    ensures ResampleData(Day1, Linear, SamplingMode.WeightedAverage,
                         Response(Day1, [0, 3600, 7200],
                                  map["11KV" := [FeederHour(0.0), FeederHour(1.0), FeederHour(2.0)]]),
                         shift)
        == Ok(Response(Day1, [0], map["11KV" := [FeederHour(1.0)]]))
  {
    var resp := Response(Day1, [0, 3600, 7200],
                         map["11KV" := [FeederHour(0.0), FeederHour(1.0), FeederHour(2.0)]]);
    DailyDownsampled(resp, shift);
    DownsampleBranch(Day1, Linear, SamplingMode.WeightedAverage, resp, shift);
  }

  /** The three hourly timestamps of the example fall in one daily
      window. */
  lemma DailySplit(shift: Time -> Time)
    requires Advances(shift) && shift(0) > 7200
    ensures Split([0, 3600, 7200], shift) == [Range(0, 3)]
  {
    var ts := [0, 3600, 7200];
    assert Scan(ts, shift, 0, 3) == [Range(0, 3)];
    assert Scan(ts, shift, 0, 2) == [Range(0, 3)];
    assert Scan(ts, shift, 0, 1) == [Range(0, 3)];
  }

  /** The feeder's three rows collapse to their average. */
  lemma DailyCollapse()
    ensures Collapse([FeederHour(0.0), FeederHour(1.0), FeederHour(2.0)], [Range(0, 3)],
                     SamplingMode.WeightedAverage)
         == Ok([FeederHour(1.0)])
  {
    var rows := [FeederHour(0.0), FeederHour(1.0), FeederHour(2.0)];
    assert rows[0..3] == rows;
    ThreeHourAverage();
    assert MergeWindow(rows, Range(0, 3), SamplingMode.WeightedAverage) == Ok(FeederHour(1.0));
    assert [Range(0, 3)][1..] == [];
    assert Collapse(rows, [], SamplingMode.WeightedAverage) == Ok([]);
    assert [FeederHour(1.0)] + [] == [FeederHour(1.0)];
  }

  /** The downsampling branch of the example above. */
  lemma DailyDownsampled(resp: Response, shift: Time -> Time)
    requires Advances(shift) && shift(0) > 7200
    requires resp == Response(Day1, [0, 3600, 7200],
                              map["11KV" := [FeederHour(0.0), FeederHour(1.0), FeederHour(2.0)]])
    ensures Aligned(resp)
    ensures Downsampled(resp, SamplingMode.WeightedAverage, shift)
         == Ok(Response(Day1, [0], map["11KV" := [FeederHour(1.0)]]))
  {
    DailySplit(shift);
    DailyCollapse();
    var m := CollapseAssets(resp.assets, [Range(0, 3)], 3, SamplingMode.WeightedAverage);
    AllOkOfOks(m, map["11KV" := [FeederHour(1.0)]]);
    assert Firsts(resp.timestamps, [Range(0, 3)]) == [0];
  }

  /** The slots between the feeder's rows at 01:00 and 02:00 lie on the
      line between them: a quarter of the way along, load 1412.5 and
      generation 1587.5, the power factors 0.9 throughout. */
  lemma FeederQuarter(i: nat)
    requires 1 <= i <= 3
    ensures FeederHour(1.0).Keys <= FeederHour(2.0).Keys
    ensures InterpEntry(FeederHour(1.0), FeederHour(2.0), i, 4) == FeederHour(1.0 + (i as real) / 4.0)
  {
    var names := {"generation", "generation_pf", "load", "load_pf"};
    assert FeederHour(1.0).Keys == FeederHour(2.0).Keys == names;
    var e := InterpEntry(FeederHour(1.0), FeederHour(2.0), i, 4);
    assert e.Keys == FeederHour(1.0).Keys;
  }

  /** Slot i of the gap between the feeder's two rows. */
  lemma QuarterSlot(i: nat)
    requires 1 <= i <= 3
    ensures InterpSlot([FeederHour(1.0), FeederHour(2.0)], 3, 0, i)
         == FeederHour(1.0 + (i as real) / 4.0)
  {
    FeederQuarter(i);
  }

  /** The gaps the feeder's two rows get at quarter hours. */
  lemma QuarterGaps()
    ensures InterpGaps([FeederHour(1.0), FeederHour(2.0)], 3)
         == [[FeederHour(1.25), FeederHour(1.5), FeederHour(1.75)], [map[], map[], map[]]]
  {
    var rows := [FeederHour(1.0), FeederHour(2.0)];
    QuarterSlot(1);
    QuarterSlot(2);
    QuarterSlot(3);
    var gaps := InterpGaps(rows, 3);
    assert gaps[0][0] == FeederHour(1.25);
    assert gaps[0][1] == FeederHour(1.5);
    assert gaps[0][2] == FeederHour(1.75);
    assert gaps[0] == [FeederHour(1.25), FeederHour(1.5), FeederHour(1.75)];
    assert gaps[1] == [map[], map[], map[]];
    assert gaps == [gaps[0], gaps[1]];
  }

  /** The feeder's two rows, upsampled to quarter hours. */
  lemma QuarterRows()
    ensures UpsampleEntries([FeederHour(1.0), FeederHour(2.0)], 3, Linear)
         == Ok([FeederHour(1.0), FeederHour(1.25), FeederHour(1.5), FeederHour(1.75),
                FeederHour(2.0), map[], map[], map[]])
  {
    var rows := [FeederHour(1.0), FeederHour(2.0)];
    assert "load" in rows[0] && "load" in rows[1];
    assert rows[0].Keys == rows[1].Keys;
    assert AllFilled(rows) && Nested(rows);
    LinearClosedForm(rows, 3);
    assert GapsFor(rows, 3, Linear) == EmptyGaps(rows, 3);
    QuarterGaps();
    var gaps := InterpGaps(rows, 3);
    assert Expand(rows[1..], gaps[1..]) == [rows[1]] + gaps[1] + Expand([], []);
    assert Expand(rows, gaps) == [rows[0]] + gaps[0] + Expand(rows[1..], gaps[1..]);
    assert Expand(rows, gaps) == [FeederHour(1.0), FeederHour(1.25), FeederHour(1.5),
                                  FeederHour(1.75), FeederHour(2.0), map[], map[], map[]];
  }

  /** The feeder's two timestamps, upsampled to quarter hours. */
  lemma QuarterAxis()
    ensures Expand([3600, 7200], TimeGaps([3600, 7200], 3, 900))
         == [3600, 4500, 5400, 6300, 7200, 8100, 9000, 9900]
  {
    var ts := [3600, 7200];
    var gaps := TimeGaps(ts, 3, 900);
    assert gaps[0] == [4500, 5400, 6300] && gaps[1] == [8100, 9000, 9900];
    assert Expand(ts[1..], gaps[1..]) == [7200] + gaps[1] + Expand([], []);
  }

  /** Upsampling the feeder's rows at 01:00 and 02:00 to quarter hours by
      linear interpolation: three interpolated rows between them, and the
      three slots after the last row left empty. */
  lemma QuarterHourExample(shift: Time -> Time)
    requires Advances(shift)
    ensures ResampleData(Min15, Linear, HoldFirst,
                         Response(Min15, [3600, 7200],
                                  map["11KV" := [FeederHour(1.0), FeederHour(2.0)]]),
                         shift)
        == Ok(Response(Min15, [3600, 4500, 5400, 6300, 7200, 8100, 9000, 9900],
                       map["11KV" := [FeederHour(1.0), FeederHour(1.25), FeederHour(1.5), FeederHour(1.75),
                                      FeederHour(2.0), map[], map[], map[]]]))
  {
    var resp := Response(Min15, [3600, 7200], map["11KV" := [FeederHour(1.0), FeederHour(2.0)]]);
    assert ResampleData(Min15, Linear, HoldFirst, resp, shift) == Upsampled(resp, Min15, Linear);
    QuarterUpsampled(resp);
  }

  /** The upsampling branch of the example above. */
  lemma QuarterUpsampled(resp: Response)
    requires resp == Response(Min15, [3600, 7200], map["11KV" := [FeederHour(1.0), FeederHour(2.0)]])
    ensures Aligned(resp) && Coarser(Hour1, Min15)
    ensures Upsampled(resp, Min15, Linear)
        == Ok(Response(Min15, [3600, 4500, 5400, 6300, 7200, 8100, 9000, 9900],
                       map["11KV" := [FeederHour(1.0), FeederHour(1.25), FeederHour(1.5), FeederHour(1.75),
                                      FeederHour(2.0), map[], map[], map[]]]))
  {
    var v := map["11KV" := [FeederHour(1.0), FeederHour(1.25), FeederHour(1.5), FeederHour(1.75),
                            FeederHour(2.0), map[], map[], map[]]];
    assert InsertCount(Min15) == 3 && Minutes(Min15) * 60 == 900;
    QuarterRows();
    QuarterAxis();
    AllOkOfOks(map a | a in resp.assets :: UpsampleEntries(resp.assets[a], 3, Linear), v);
    UpsampledIs(resp, Min15, Linear, v);
  }
}

=== FILE: fill.dfy ===
/**
 What `_linear_interpolate` makes of an upsampled entry list: the closed form
 of the linear fill, and the LOCF and NOCB lists it leaves alone.
 */
module Fill {
  import opened Schemas
  import opened Upsample
  import opened Interpolate

  /** No original entry is empty: the resampler's "no missing data"
      assumption. */
  predicate AllFilled(s: seq<Entry>)
  {
    forall j :: 0 <= j < |s| ==> s[j] != map[]
  }

  /** Every variable of an anchor is also a variable of the anchor after it,
      so that reading it there does not raise KeyError. */
  predicate Nested(s: seq<Entry>)
  {
    forall j :: 0 <= j < |s| - 1 ==> s[j].Keys <= s[j + 1].Keys
  }

  /** The value slot i of the gap after anchor j of s ends up with. */
  function InterpSlot(s: seq<Entry>, k: nat, j: nat, i: nat): Entry
    requires j < |s|
  {
    if j + 1 < |s| && s[j].Keys <= s[j + 1].Keys then InterpEntry(s[j], s[j + 1], i, k + 1) else map[]
  }

  /** The gaps linear interpolation evidently produces: slot i of the gap
      between anchors p and q holds the (i + 1)-th of k evenly spaced points
      from p to q; the gap after the last anchor has nothing to interpolate
      towards and stays empty. A gap whose left anchor has a variable the
      right one lacks is given empty slots here only as a placeholder: the
      linear pass raises KeyError there, and this layout is used only when
      the anchors nest. */
  function InterpGaps(s: seq<Entry>, k: nat): seq<seq<Entry>>
  {
    seq(|s|, j requires 0 <= j < |s| => seq(k, i requires 0 <= i < k => InterpSlot(s, k, j, i + 1)))
  }

  /** Where slot i of anchor j's block lands when every anchor is followed
      by k slots (slot 0 is the anchor itself): the j blocks before it hold
      k + 1 slots each. */
  function Pos(j: nat, i: nat, k: nat): (p: nat)
    ensures p == j * (k + 1) + i
  {
    SlotIsProduct(j, k + 1);
    Slot(j, k + 1) + i
  }

  /** What a list with anchors s and k empty slots after each holds, slot by
      slot. */
  ghost predicate EmptyLayout(u: seq<Entry>, s: seq<Entry>, k: nat)
  {
    && |u| == Slot(|s|, k + 1)
    && forall j, i :: 0 <= j < |s| && 0 <= i <= k ==>
         Pos(j, i, k) < |u| && u[Pos(j, i, k)] == if i == 0 then s[j] else map[]
  }

  /** What the interpolated list holds, slot by slot. */
  ghost predicate InterpLayout(t: seq<Entry>, s: seq<Entry>, k: nat)
  {
    && |t| == Slot(|s|, k + 1)
    && forall j, i :: 0 <= j < |s| && 0 <= i <= k ==>
         Pos(j, i, k) < |t| && t[Pos(j, i, k)] == if i == 0 then s[j] else InterpSlot(s, k, j, i)
  }

  lemma EmptyLayoutOf(s: seq<Entry>, k: nat)
    ensures EmptyLayout(Expand(s, EmptyGaps(s, k)), s, k)
  {
    ExpandLength(s, EmptyGaps(s, k), k);
    forall j, i | 0 <= j < |s| && 0 <= i <= k
      ensures Pos(j, i, k) < |Expand(s, EmptyGaps(s, k))|
      ensures Expand(s, EmptyGaps(s, k))[Pos(j, i, k)] == if i == 0 then s[j] else map[]
    {
      ExpandAt(s, EmptyGaps(s, k), k, j, i);
    }
  }

  lemma InterpSlotOf(s: seq<Entry>, k: nat, j: nat, i: nat)
    requires j < |s| && i <= k
    ensures Pos(j, i, k) < |Expand(s, InterpGaps(s, k))|
    ensures Expand(s, InterpGaps(s, k))[Pos(j, i, k)] == if i == 0 then s[j] else InterpSlot(s, k, j, i)
  {
    ExpandAt(s, InterpGaps(s, k), k, j, i);
  }

  lemma InterpLayoutOf(s: seq<Entry>, k: nat)
    ensures InterpLayout(Expand(s, InterpGaps(s, k)), s, k)
  {
    ExpandLength(s, InterpGaps(s, k), k);
    forall j, i | 0 <= j < |s| && 0 <= i <= k
      ensures Pos(j, i, k) < |Expand(s, InterpGaps(s, k))|
      ensures Expand(s, InterpGaps(s, k))[Pos(j, i, k)] == if i == 0 then s[j] else InterpSlot(s, k, j, i)
    {
      InterpSlotOf(s, k, j, i);
    }
  }

  /** Every slot is slot i of some anchor j's block. */
  lemma Decompose(idx: nat, n: nat, k: nat) returns (j: nat, i: nat)
    requires idx < Slot(n, k + 1)
    ensures j < n && i <= k && idx == Pos(j, i, k)
  {
    j := n - 1;
    while idx < Slot(j, k + 1)
      invariant j < n && idx < Slot(j + 1, k + 1)
      decreases j
    {
      j := j - 1;
    }
    i := idx - Slot(j, k + 1);
  }

  /** In the list with empty gaps, the search from inside the gap after
      anchor j finds anchor j + 1, or nothing after the last anchor. */
  lemma NextAnchor(u: seq<Entry>, s: seq<Entry>, k: nat, j: nat, i: nat)
    requires EmptyLayout(u, s, k) && AllFilled(s)
    requires j < |s| && 0 < i <= k
    ensures Pos(j, i, k) < |u|
    ensures j + 1 < |s| ==> NextFilled(u, Pos(j, i, k)) == Some(Pos(j + 1, 0, k))
    ensures j + 1 == |s| ==> NextFilled(u, Pos(j, i, k)).None?
  {
    assert Pos(j + 1, 0, k) == Pos(j, k, k) + 1;
    forall t | Pos(j, i, k) <= t < Pos(j + 1, 0, k)
      ensures u[t] == map[]
    {
      assert t == Pos(j, t - Slot(j, k + 1), k);
    }
    if j + 1 < |s| {
      assert u[Pos(j + 1, 0, k)] == s[j + 1];
      NextFilledIs(u, Pos(j, i, k), Pos(j + 1, 0, k));
    }
  }

  /** The linear fill of the list with empty gaps steps every slot to the
      closed form, except inside a gap whose left anchor has a variable the
      right one lacks. */
  lemma StepAt(t: seq<Entry>, u: seq<Entry>, s: seq<Entry>, k: nat, j: nat, i: nat)
    requires InterpLayout(t, s, k) && EmptyLayout(u, s, k) && AllFilled(s)
    requires j < |s| && i <= k
    requires i > 0 && j + 1 < |s| ==> s[j].Keys <= s[j + 1].Keys
    ensures Pos(j, i, k) < |u|
    ensures StepOk(t, u, Pos(j, i, k))
  {
    var idx := Pos(j, i, k);
    if i == 0 {
      assert u[idx] == s[j] == t[idx];
    } else {
      NextAnchor(u, s, k, j, i);
      assert u[idx] == map[];
      if j + 1 < |s| {
        var c := Pos(j + 1, 0, k);
        assert u[c] == s[j + 1];
        assert idx - 1 == Pos(j, i - 1, k);
        assert t[idx - 1] == if i - 1 == 0 then s[j] else InterpEntry(s[j], s[j + 1], i - 1, k + 1);
        assert t[idx] == InterpEntry(s[j], s[j + 1], i, k + 1);
        StepTowards(t, u, idx, c, s[j], s[j + 1], i, k + 1);
      } else {
        assert t[idx] == map[];
      }
    }
  }

  /** A slot that lies i slots into a gap of m - 1 slots ending at c steps to
      the i-th point between p and q when the slot before it holds the
      (i - 1)-th. */
  lemma StepTowards(t: seq<Entry>, u: seq<Entry>, idx: nat, c: nat, p: Entry, q: Entry, i: nat, m: nat)
    requires |t| == |u| && 0 < idx < |u|
    requires 0 < i < m && c == idx + m - i
    requires p.Keys <= q.Keys
    requires u[idx] == map[] && NextFilled(u, idx) == Some(c) && u[c] == q
    requires t[idx - 1] == if i - 1 == 0 then p else InterpEntry(p, q, i - 1, m)
    requires t[idx] == InterpEntry(p, q, i, m)
    ensures StepOk(t, u, idx)
  {
    LerpEntryStep(p, q, i - 1, m);
    StepLerps(t, u, idx, c);
  }

  /** The first anchor whose variables the next anchor does not all have. */
  lemma FirstUnnested(s: seq<Entry>) returns (j: nat)
    requires !Nested(s)
    ensures j < |s| - 1 && !(s[j].Keys <= s[j + 1].Keys)
    ensures forall j' :: 0 <= j' < j ==> s[j'].Keys <= s[j' + 1].Keys
  {
    j := 0;
    while s[j].Keys <= s[j + 1].Keys
      invariant j < |s| - 1
      invariant exists j' :: j <= j' < |s| - 1 && !(s[j'].Keys <= s[j' + 1].Keys)
      invariant forall j' :: 0 <= j' < j ==> s[j'].Keys <= s[j' + 1].Keys
      decreases |s| - j
    {
      j := j + 1;
    }
  }

  /** With every gap fillable, the fill of the empty-gap list u steps
      every slot to the interpolated list t. */
  lemma FillNested(t: seq<Entry>, u: seq<Entry>, s: seq<Entry>, k: nat)
    requires InterpLayout(t, s, k) && EmptyLayout(u, s, k) && AllFilled(s)
    requires k == 0 || Nested(s)
    ensures LinearFill(u) == Ok(t)
  {
    MixNone(t, u);
    forall idx | 0 <= idx < |u|
      ensures StepOk(t, u, idx)
    {
      var j, i := Decompose(idx, |s|, k);
      StepAt(t, u, s, k, j, i);
    }
    FillRun(t, u, 0);
  }

  /** Every slot before the first slot of the gap after anchor jb steps to
      the interpolated list, when the gaps before it are all fillable. */
  lemma StepsBefore(t: seq<Entry>, u: seq<Entry>, s: seq<Entry>, k: nat, jb: nat)
    requires InterpLayout(t, s, k) && EmptyLayout(u, s, k) && AllFilled(s)
    requires k > 0 && jb < |s|
    requires forall j' :: 0 <= j' < jb ==> s[j'].Keys <= s[j' + 1].Keys
    ensures Pos(jb, 1, k) < |u|
    ensures forall idx :: 0 <= idx < Pos(jb, 1, k) ==> StepOk(t, u, idx)
  {
    SlotMonotone(jb, |s|, k + 1);
    forall idx | 0 <= idx < Pos(jb, 1, k)
      ensures StepOk(t, u, idx)
    {
      var j, i := Decompose(idx, |s|, k);
      if jb < j {
        SlotMonotone(jb, j, k + 1);
      }
      StepAt(t, u, s, k, j, i);
    }
  }

  /** The first slot of the gap after anchor jb: empty in u, preceded by the
      anchor itself in t, and next followed by anchor jb + 1 in u. */
  lemma GapStart(t: seq<Entry>, u: seq<Entry>, s: seq<Entry>, k: nat, jb: nat)
    requires InterpLayout(t, s, k) && EmptyLayout(u, s, k) && AllFilled(s)
    requires k > 0 && jb + 1 < |s|
    ensures 0 < Pos(jb, 1, k) < |u| && Pos(jb + 1, 0, k) < |u|
    ensures u[Pos(jb, 1, k)] == map[]
    ensures t[Pos(jb, 1, k) - 1] == s[jb]
    ensures NextFilled(u, Pos(jb, 1, k)) == Some(Pos(jb + 1, 0, k))
    ensures u[Pos(jb + 1, 0, k)] == s[jb + 1]
  {
    NextAnchor(u, s, k, jb, 1);
    assert Pos(jb, 1, k) - 1 == Pos(jb, 0, k);
  }

  /** With some gap not fillable, the fill of the empty-gap list raises when
      it reaches the first such gap. */
  lemma FillUnnested(t: seq<Entry>, u: seq<Entry>, s: seq<Entry>, k: nat)
    requires InterpLayout(t, s, k) && EmptyLayout(u, s, k) && AllFilled(s)
    requires k > 0 && !Nested(s)
    ensures LinearFill(u) == Raised
  {
    MixNone(t, u);
    var jb := FirstUnnested(s);
    StepsBefore(t, u, s, k, jb);
    GapStart(t, u, s, k, jb);
    FillRaise(t, u, 0, Pos(jb, 1, k), Pos(jb + 1, 0, k));
  }

  /** Upsampling with linear interpolation, in closed form: with no original
      entry empty and k slots inserted after every anchor, `_linear_interpolate`
      gives the j-th slot of the gap between p and q, per variable,
      p + (q - p) * j / (k + 1), and leaves the gap after the last anchor
      empty. It raises exactly when there is a gap to fill whose left anchor
      has a variable the right one lacks. */
  lemma LinearClosedForm(s: seq<Entry>, k: nat)
    requires AllFilled(s)
    ensures LinearFill(Expand(s, EmptyGaps(s, k)))
         == if k == 0 || Nested(s) then Ok(Expand(s, InterpGaps(s, k))) else Raised
  {
    EmptyLayoutOf(s, k);
    InterpLayoutOf(s, k);
    if k == 0 || Nested(s) {
      FillNested(Expand(s, InterpGaps(s, k)), Expand(s, EmptyGaps(s, k)), s, k);
    } else {
      FillUnnested(Expand(s, InterpGaps(s, k)), Expand(s, EmptyGaps(s, k)), s, k);
    }
  }

  /** With no original entry empty, the LOCF list has no empty slot, so the
      interpolation pass the resampler runs afterwards leaves it alone. */
  lemma LocfUntouched(s: seq<Entry>, k: nat)
    requires AllFilled(s)
    ensures LinearFill(Expand(s, LocfGaps(s, k))) == Ok(Expand(s, LocfGaps(s, k)))
  {
    var u := Expand(s, LocfGaps(s, k));
    ExpandLength(s, LocfGaps(s, k), k);
    forall idx | 0 <= idx < |u|
      ensures u[idx] != map[]
    {
      var j, i := Decompose(idx, |s|, k);
      ExpandAt(s, LocfGaps(s, k), k, j, i);
    }
    NothingToFill(u);
  }

  /** With no original entry empty, the corrected NOCB list is empty only in
      the gap after the last anchor, where nothing follows, so the
      interpolation pass leaves it alone. */
  lemma NocbUntouched(s: seq<Entry>, k: nat)
    requires AllFilled(s)
    ensures LinearFill(Expand(s, NocbGaps(s, k))) == Ok(Expand(s, NocbGaps(s, k)))
  {
    var u := Expand(s, NocbGaps(s, k));
    ExpandLength(s, NocbGaps(s, k), k);
    forall idx | 0 <= idx < |u| && u[idx] == map[]
      ensures NextFilled(u, idx).None?
    {
      var j, i := Decompose(idx, |s|, k);
      ExpandAt(s, NocbGaps(s, k), k, j, i);
      assert j == |s| - 1;
      forall t | idx <= t < |u|
        ensures u[t] == map[]
      {
        ExpandAt(s, NocbGaps(s, k), k, j, t - Slot(j, k + 1));
      }
    }
    NothingToFill(u);
  }
}

=== FILE: interpolate.dfy ===
/**
 `_linear_interpolate`: one left-to-right pass over an asset's entries that
 replaces every empty entry lying between two non-empty ones by a step of
 linear interpolation from the entry before it towards the next non-empty
 one.
 */
module Interpolate {
  import opened Schemas

  /** The inner `lerp`: one step from x towards y, a d-th of the way. */
  function Lerp(x: real, y: real, d: nat): real
    requires d > 0
  {
    x + (y - x) / (d as real)
  }

  /** A phase is interpolated only when it is present on both sides. */
  function LerpPhase(a: Option<real>, b: Option<real>, d: nat): Option<real>
    requires d > 0
  {
    if a.Some? && b.Some? then Some(Lerp(a.value, b.value, d)) else None
  }

  /** One variable's interpolated value: phase by phase when both sides are
      unbalanced, the lerp when both are present floats, and `None` for any
      other pairing. */
  function LerpValue(p: Value, q: Value, d: nat): Value
    requires d > 0
  {
    if p.Unbalanced? && q.Unbalanced? then
      Unbalanced(LerpPhase(p.a, q.a, d), LerpPhase(p.b, q.b, d), LerpPhase(p.c, q.c, d))
    else if p.Scalar? && p.num.Some? && q.Scalar? && q.num.Some? then
      Scalar(Some(Lerp(p.num.value, q.num.value, d)))
    else Scalar(None)
  }

  /** The new entry built from the previous entry p and the next non-empty
      entry q: one value per variable of p, read from q as well, so a variable
      of p that q lacks raises KeyError. */
  function LerpEntry(p: Entry, q: Entry, d: nat): (r: Result<Entry>)
    requires d > 0
    ensures r.Ok? <==> p.Keys <= q.Keys
    ensures r.Ok? ==> r.value.Keys == p.Keys
  {
    if p.Keys <= q.Keys then Ok(map x | x in p :: LerpValue(p[x], q[x], d)) else Raised
  }

  /** The search for the next non-empty entry from slot i on; None where the
      source's scan runs off the end and gives up with IndexError. */
  function NextFilled(s: seq<Entry>, i: nat): (r: Option<nat>)
    requires i <= |s|
    ensures r.Some? ==> i <= r.value < |s| && s[r.value] != map[]
    ensures r.Some? ==> forall t :: i <= t < r.value ==> s[t] == map[]
    ensures r.None? <==> forall t :: i <= t < |s| ==> s[t] == map[]
    decreases |s| - i
  {
    if i == |s| then None
    else if s[i] != map[] then Some(i)
    else NextFilled(s, i + 1)
  }

  /** The pass from slot idx on. The slot before idx is the previous entry,
      which for idx = 0 is the last slot of the list (Python's index -1). A
      non-empty slot, or an empty one with no non-empty slot after it, is
      left as it is. */
  function FillFrom(s: seq<Entry>, idx: nat): (r: Result<seq<Entry>>)
    requires idx <= |s|
    ensures r.Ok? ==> |r.value| == |s|
    decreases |s| - idx
  {
    if idx == |s| then Ok(s)
    else if s[idx] != map[] then FillFrom(s, idx + 1)
    else
      var prev := if idx == 0 then s[|s| - 1] else s[idx - 1];
      match NextFilled(s, idx)
      case None => FillFrom(s, idx + 1)
      case Some(q) =>
        match LerpEntry(prev, s[q], q - idx + 1)
        case Raised => Raised
        case Ok(e) => FillFrom(s[idx := e], idx + 1)
  }

  /** `_linear_interpolate` on a whole entry list: it keeps the length and
      never changes a non-empty slot. */
  function LinearFill(s: seq<Entry>): (r: Result<seq<Entry>>)
    ensures r.Ok? ==> |r.value| == |s|
    ensures r.Ok? ==> forall t :: 0 <= t < |s| && s[t] != map[] ==> r.value[t] == s[t]
  {
    FillFromKeeps(s, 0);
    FillFrom(s, 0)
  }

  /** The pass from idx never touches a slot before idx nor a non-empty
      slot, and leaves empty every slot with no non-empty slot after it. */
  lemma {:induction false} FillFromKeeps(s: seq<Entry>, idx: nat)
    requires idx <= |s|
    ensures FillFrom(s, idx).Ok? ==>
      forall t :: 0 <= t < |s| && (t < idx || s[t] != map[]) ==> FillFrom(s, idx).value[t] == s[t]
    ensures FillFrom(s, idx).Ok? ==>
      forall t :: idx <= t < |s| && NextFilled(s, t).None? ==> FillFrom(s, idx).value[t] == map[]
    decreases |s| - idx
  {
    if idx == |s| {
    } else if s[idx] != map[] || NextFilled(s, idx).None? {
      FillSkip(s, idx);
      FillFromKeeps(s, idx + 1);
    } else {
      var c := NextFilled(s, idx).value;
      var prev := if idx == 0 then s[|s| - 1] else s[idx - 1];
      if LerpEntry(prev, s[c], c - idx + 1).Ok? {
        var e := LerpEntry(prev, s[c], c - idx + 1).value;
        FillVisit(s, idx, c, prev, e);
        NextFilledBeyond(s, idx, e);
        FillFromKeeps(s[idx := e], idx + 1);
      }
    }
  }

  /** Non-empty entries are never modified by `_linear_interpolate`, and
      slots with no non-empty entry after them stay empty. */
  lemma LinearFillKeeps(s: seq<Entry>)
    ensures LinearFill(s).Ok? ==> forall t :: 0 <= t < |s| && s[t] != map[] ==> LinearFill(s).value[t] == s[t]
    ensures LinearFill(s).Ok? ==>
      forall t :: 0 <= t < |s| && NextFilled(s, t).None? ==> LinearFill(s).value[t] == map[]
  {
    FillFromKeeps(s, 0);
  }

  /** The search from a later slot does not look at an earlier one. */
  lemma NextFilledBeyond(s: seq<Entry>, idx: nat, e: Entry)
    requires idx < |s|
    ensures forall t :: idx < t <= |s| ==> NextFilled(s[idx := e], t) == NextFilled(s, t)
  {
    forall t | idx < t <= |s|
      ensures NextFilled(s[idx := e], t) == NextFilled(s, t)
    {
      NextFilledAgree(s[idx := e], s, t);
    }
  }

  /** Two lists that agree from slot i on give the same search result. */
  lemma NextFilledAgree(s: seq<Entry>, u: seq<Entry>, i: nat)
    requires |s| == |u| && i <= |s|
    requires forall t :: i <= t < |s| ==> s[t] == u[t]
    ensures NextFilled(s, i) == NextFilled(u, i)
  {
    var a, b := NextFilled(s, i), NextFilled(u, i);
    if a.Some? && b.Some? {
      assert !(a.value < b.value) && !(b.value < a.value);
    }
  }

  /** The first non-empty slot from i on is c. */
  lemma NextFilledIs(s: seq<Entry>, i: nat, c: nat)
    requires i <= c < |s|
    requires s[c] != map[]
    requires forall t :: i <= t < c ==> s[t] == map[]
    ensures NextFilled(s, i) == Some(c)
  {
    var r := NextFilled(s, i);
    assert r.Some?;
    assert !(r.value < c) && !(c < r.value);
  }

  // ---------------------------------------------------------------------
  // The closed form of the iterated lerp.

  /** The j-th of m - 1 evenly spaced points strictly between x and y. */
  function Between(x: real, y: real, j: nat, m: nat): real
    requires m > 0
  {
    x + (y - x) * (j as real) / (m as real)
  }

  function InterpPhase(a: Option<real>, b: Option<real>, j: nat, m: nat): Option<real>
    requires m > 0
  {
    if a.Some? && b.Some? then Some(Between(a.value, b.value, j, m)) else None
  }

  /** The value the j-th of m - 1 inserted slots between values p and q ends
      up with. */
  function InterpValue(p: Value, q: Value, j: nat, m: nat): Value
    requires m > 0
  {
    if p.Unbalanced? && q.Unbalanced? then
      Unbalanced(InterpPhase(p.a, q.a, j, m), InterpPhase(p.b, q.b, j, m), InterpPhase(p.c, q.c, j, m))
    else if p.Scalar? && p.num.Some? && q.Scalar? && q.num.Some? then
      Scalar(Some(Between(p.num.value, q.num.value, j, m)))
    else Scalar(None)
  }

  /** The entry the j-th of m - 1 inserted slots between entries p and q ends
      up with. */
  function InterpEntry(p: Entry, q: Entry, j: nat, m: nat): Entry
    requires m > 0
    requires p.Keys <= q.Keys
  {
    map x | x in p :: InterpValue(p[x], q[x], j, m)
  }

  /** The first step from x, a m-th of the way to y, is the first point. */
  lemma LerpFirst(x: real, y: real, m: nat)
    requires m > 0
    ensures Lerp(x, y, m) == Between(x, y, 1, m)
  {
  }

  /** A step from point i, a (m - i)-th of the rest of the way to y, lands on
      point i + 1. */
  lemma LerpNext(x: real, y: real, i: nat, m: nat)
    requires 0 < i < m
    ensures Lerp(Between(x, y, i, m), y, m - i) == Between(x, y, i + 1, m)
  {
    var d, mm, ii := y - x, m as real, i as real;
    var v := Between(x, y, i, m);
    assert v == x + d * ii / mm;
    assert y - v == d * (mm - ii) / mm;
    assert (y - v) / (mm - ii) == d / mm;
    assert ((m - i) as real) == mm - ii;
    assert Lerp(v, y, m - i) == x + d * ii / mm + d / mm;
    assert d * ((i + 1) as real) / mm == d * ii / mm + d / mm;
  }

  /** Lerping from the previous slot's value towards q reproduces the closed
      form, variable by variable: the first slot steps from p, slot i + 1
      from slot i. */
  lemma LerpValueStep(p: Value, q: Value, i: nat, m: nat)
    requires i < m
    ensures LerpValue(if i == 0 then p else InterpValue(p, q, i, m), q, m - i) == InterpValue(p, q, i + 1, m)
  {
    if p.Unbalanced? && q.Unbalanced? {
      if i == 0 {
        if p.a.Some? && q.a.Some? { LerpFirst(p.a.value, q.a.value, m); }
        if p.b.Some? && q.b.Some? { LerpFirst(p.b.value, q.b.value, m); }
        if p.c.Some? && q.c.Some? { LerpFirst(p.c.value, q.c.value, m); }
      } else {
        if p.a.Some? && q.a.Some? { LerpNext(p.a.value, q.a.value, i, m); }
        if p.b.Some? && q.b.Some? { LerpNext(p.b.value, q.b.value, i, m); }
        if p.c.Some? && q.c.Some? { LerpNext(p.c.value, q.c.value, i, m); }
      }
    } else if p.Scalar? && p.num.Some? && q.Scalar? && q.num.Some? {
      if i == 0 {
        LerpFirst(p.num.value, q.num.value, m);
      } else {
        LerpNext(p.num.value, q.num.value, i, m);
      }
    }
  }

  /** The same, for whole entries whose variables q has. */
  lemma LerpEntryStep(p: Entry, q: Entry, i: nat, m: nat)
    requires i < m
    requires p.Keys <= q.Keys
    ensures LerpEntry(if i == 0 then p else InterpEntry(p, q, i, m), q, m - i)
         == Ok(InterpEntry(p, q, i + 1, m))
  {
    var prev := if i == 0 then p else InterpEntry(p, q, i, m);
    var r := LerpEntry(prev, q, m - i);
    assert prev.Keys == p.Keys;
    forall x | x in p
      ensures r.value[x] == InterpEntry(p, q, i + 1, m)[x]
    {
      LerpValueStep(p[x], q[x], i, m);
    }
    assert r.value == InterpEntry(p, q, i + 1, m);
  }

  // ---------------------------------------------------------------------
  // Running the pass against a known outcome.

  /** The first idx slots taken from the outcome t, the rest from the input s:
      the list as the pass leaves it before visiting slot idx. */
  function Mix(t: seq<Entry>, s: seq<Entry>, idx: nat): (u: seq<Entry>)
    requires |t| == |s| && idx <= |s|
    ensures |u| == |s|
    ensures forall j :: 0 <= j < |s| ==> u[j] == if j < idx then t[j] else s[j]
  {
    t[..idx] + s[idx..]
  }

  /** Before the first visit the list is the input itself. */
  lemma MixNone(t: seq<Entry>, s: seq<Entry>)
    requires |t| == |s|
    ensures Mix(t, s, 0) == s
  {
    assert Mix(t, s, 0) == t[..0] + s[0..];
  }

  /** What the pass does at slot idx of input s, assuming the slots before
      hold their outcome t: keep a non-empty slot, leave a slot with nothing
      after it empty, and otherwise lerp from the outcome of the previous
      slot. */
  ghost predicate StepOk(t: seq<Entry>, s: seq<Entry>, idx: nat)
    requires |t| == |s| && idx < |s|
  {
    if s[idx] != map[] then t[idx] == s[idx]
    else
      match NextFilled(s, idx)
      case None => t[idx] == map[]
      case Some(c) => idx > 0 && LerpEntry(t[idx - 1], s[c], c - idx + 1) == Ok(t[idx])
  }

  /** One visit: a slot that steps to its outcome moves the pass on with
      one more slot of the outcome in place. */
  lemma FillOne(t: seq<Entry>, s: seq<Entry>, a: nat)
    requires |t| == |s| && a < |s|
    requires StepOk(t, s, a)
    ensures FillFrom(Mix(t, s, a), a) == FillFrom(Mix(t, s, a + 1), a + 1)
  {
    if s[a] != map[] || NextFilled(s, a).None? {
      var u := Mix(t, s, a);
      MixKeep(t, s, a);
      NextFilledAgree(u, s, a);
      FillSkip(u, a);
    } else {
      var c := StepTarget(t, s, a);
      LerpOne(t, s, a, c);
    }
  }

  /** The lerping case of a step, read back. */
  lemma StepTarget(t: seq<Entry>, s: seq<Entry>, a: nat) returns (c: nat)
    requires |t| == |s| && a < |s|
    requires StepOk(t, s, a) && s[a] == map[] && NextFilled(s, a).Some?
    ensures NextFilled(s, a) == Some(c) && 0 < a
    ensures LerpEntry(t[a - 1], s[c], c - a + 1) == Ok(t[a])
  {
    c := NextFilled(s, a).value;
  }

  /** One visit of an empty slot that lerps towards slot c. */
  lemma LerpOne(t: seq<Entry>, s: seq<Entry>, a: nat, c: nat)
    requires |t| == |s| && 0 < a < |s|
    requires s[a] == map[] && NextFilled(s, a) == Some(c)
    requires LerpEntry(t[a - 1], s[c], c - a + 1) == Ok(t[a])
    ensures FillFrom(Mix(t, s, a), a) == FillFrom(Mix(t, s, a + 1), a + 1)
  {
    var u := Mix(t, s, a);
    MixStep(t, s, a);
    NextFilledAgree(u, s, a);
    var p, q := u[a - 1], u[c];
    assert p == t[a - 1] && q == s[c] && u[a] == map[];
    FillVisit(u, a, c, p, t[a]);
  }

  /** Visiting a slot the outcome leaves as it is changes nothing. */
  lemma MixKeep(t: seq<Entry>, s: seq<Entry>, a: nat)
    requires |t| == |s| && a < |s| && t[a] == s[a]
    ensures Mix(t, s, a + 1) == Mix(t, s, a)
  {
    assert Mix(t, s, a + 1)[a] == Mix(t, s, a)[a];
  }

  /** Visiting slot a puts the outcome's slot a in place. */
  lemma MixStep(t: seq<Entry>, s: seq<Entry>, a: nat)
    requires |t| == |s| && a < |s|
    ensures Mix(t, s, a + 1) == Mix(t, s, a)[a := t[a]]
  {
  }

  /** A slot that is non-empty, or empty with nothing after it, is passed
      over. */
  lemma FillSkip(u: seq<Entry>, a: nat)
    requires a < |u|
    requires u[a] != map[] || NextFilled(u, a).None?
    ensures FillFrom(u, a) == FillFrom(u, a + 1)
  {
  }

  /** An empty slot with a non-empty slot c after it takes the lerp from the
      previous entry. */
  lemma FillVisit(u: seq<Entry>, a: nat, c: nat, prev: Entry, e: Entry)
    requires a < |u|
    requires u[a] == map[]
    requires prev == if a == 0 then u[|u| - 1] else u[a - 1]
    requires NextFilled(u, a) == Some(c)
    requires LerpEntry(prev, u[c], c - a + 1) == Ok(e)
    ensures FillFrom(u, a) == FillFrom(u[a := e], a + 1)
  {
    var r := match LerpEntry(prev, u[c], c - a + 1)
      case Raised => Raised
      case Ok(e') => FillFrom(u[a := e'], a + 1);
    assert r == FillFrom(u[a := e], a + 1);
    assert FillFrom(u, a) == r;
  }

  /** The lerping case of a step. */
  lemma StepLerps(t: seq<Entry>, s: seq<Entry>, idx: nat, c: nat)
    requires |t| == |s| && 0 < idx < |s|
    requires s[idx] == map[]
    requires NextFilled(s, idx) == Some(c)
    requires LerpEntry(t[idx - 1], s[c], c - idx + 1) == Ok(t[idx])
    ensures StepOk(t, s, idx)
  {
  }

  /** When every slot from a on steps to its outcome, the pass from a yields
      the outcome. */
  lemma {:induction false} FillRun(t: seq<Entry>, s: seq<Entry>, a: nat)
    requires |t| == |s| && a <= |s|
    requires forall idx :: a <= idx < |s| ==> StepOk(t, s, idx)
    ensures FillFrom(Mix(t, s, a), a) == Ok(t)
    decreases |s| - a
  {
    if a == |s| {
      assert Mix(t, s, a) == t;
    } else {
      FillOne(t, s, a);
      FillRun(t, s, a + 1);
    }
  }

  /** The visit that raises: slot b is empty and its previous entry has a
      variable that the next non-empty entry lacks. */
  lemma FillStops(t: seq<Entry>, s: seq<Entry>, b: nat, c: nat)
    requires |t| == |s| && 0 < b < |s|
    requires s[b] == map[]
    requires NextFilled(s, b) == Some(c)
    requires !(t[b - 1].Keys <= s[c].Keys)
    ensures FillFrom(Mix(t, s, b), b) == Raised
  {
    var u := Mix(t, s, b);
    NextFilledAgree(u, s, b);
    assert u[b - 1] == t[b - 1] && u[c] == s[c];
  }

  /** When the slots from a up to b step to their outcome and the lerp at
      slot b raises, the pass from a raises. */
  lemma {:induction false} FillRaise(t: seq<Entry>, s: seq<Entry>, a: nat, b: nat, c: nat)
    requires |t| == |s| && a <= b < |s|
    requires forall idx :: a <= idx < b ==> StepOk(t, s, idx)
    requires s[b] == map[] && 0 < b
    requires NextFilled(s, b) == Some(c)
    requires !(t[b - 1].Keys <= s[c].Keys)
    ensures FillFrom(Mix(t, s, a), a) == Raised
    decreases b - a
  {
    if a == b {
      FillStops(t, s, b, c);
    } else {
      FillOne(t, s, a);
      FillRaise(t, s, a + 1, b, c);
    }
  }

  /** A list in which every empty slot has no non-empty slot after it is
      left as it is. */
  lemma NothingToFill(s: seq<Entry>)
    requires forall idx :: 0 <= idx < |s| && s[idx] == map[] ==> NextFilled(s, idx).None?
    ensures LinearFill(s) == Ok(s)
  {
    forall idx | 0 <= idx < |s|
      ensures StepOk(s, s, idx)
    {
    }
    FillRun(s, s, 0);
    assert Mix(s, s, 0) == s;
  }
}

=== FILE: resampler.dfy ===
/**
 `resample_data`: bringing a response sampled hourly to the requested
 interval, by collapsing windows when the target is coarser than an hour
 and by inserting slots when it is finer.
 */
module Resampler {
  import opened Schemas
  import opened Windows
  import opened Downsample
  import opened Upsample
  import opened Interpolate
  import opened Fill

  /** Every asset's result, or Raised as soon as one asset's raises. */
  function AllOk(m: map<string, Result<seq<Entry>>>): (r: Result<map<string, seq<Entry>>>)
    ensures r.Ok? <==> forall a :: a in m ==> m[a].Ok?
    ensures r.Ok? ==> r.value.Keys == m.Keys
    ensures r.Ok? ==> forall a :: a in m ==> r.value[a] == m[a].value
  {
    if forall a :: a in m ==> m[a].Ok? then Ok(map a | a in m :: m[a].value) else Raised
  }

  /** When every asset's result is known, so is the combination. */
  lemma AllOkOfOks(m: map<string, Result<seq<Entry>>>, v: map<string, seq<Entry>>)
    requires m.Keys == v.Keys
    requires forall a :: a in m ==> m[a] == Ok(v[a])
    ensures AllOk(m) == Ok(v)
  {
    assert AllOk(m).value == v;
  }

  /** One asset that raises makes the combination raise. */
  lemma AllOkRaised(m: map<string, Result<seq<Entry>>>, a: string)
    requires a in m && m[a].Raised?
    ensures AllOk(m) == Raised
  {
  }

  /** One more asset's result recorded by the asset loop. */
  lemma Record(m: map<string, Result<seq<Entry>>>, done: map<string, seq<Entry>>,
               left: set<string>, a: string, v: seq<Entry>)
    requires a in left && left <= m.Keys
    requires done.Keys == m.Keys - left
    requires forall b :: b in done ==> m[b] == Ok(done[b])
    requires m[a] == Ok(v)
    ensures done[a := v].Keys == m.Keys - (left - {a})
    ensures forall b :: b in done[a := v] ==> m[b] == Ok(done[a := v][b])
  {
  }

  /** Every asset's entries collapsed window by window. */
  function CollapseAssets(assets: map<string, seq<Entry>>, ws: seq<Range>, n: nat, mode: SamplingMode)
    : (m: map<string, Result<seq<Entry>>>)
    requires Tiles(ws, n)
    requires forall a :: a in assets ==> |assets[a]| == n
    ensures m.Keys == assets.Keys
    ensures forall a :: a in assets ==> m[a] == Collapse(assets[a], ws, mode)
  {
    map a | a in assets :: Collapse(assets[a], ws, mode)
  }

  /** The downsampling branch: the axis is windowed by the target's delta,
      each window keeps its first timestamp, and every asset's entries
      collapse window by window. */
  function Downsampled(resp: Response, mode: SamplingMode, shift: Time -> Time): (r: Result<Response>)
    requires Aligned(resp) && |resp.timestamps| > 0 && Advances(shift)
    ensures r.Ok? ==> Aligned(r.value) && |r.value.timestamps| == |Split(resp.timestamps, shift)|
    ensures r.Ok? ==> r.value.interval == resp.interval && r.value.assets.Keys == resp.assets.Keys
  {
    var ws := Split(resp.timestamps, shift);
    match AllOk(CollapseAssets(resp.assets, ws, |resp.timestamps|, mode))
    case Raised => Raised
    case Ok(assets) => Ok(Response(resp.interval, Firsts(resp.timestamps, ws), assets))
  }

  /** The slots each method inserts after every anchor, as evidently
      intended (NOCB leaves the slots after the last anchor empty). */
  function GapsFor(s: seq<Entry>, k: nat, how: InterpolationMethod): (gaps: seq<seq<Entry>>)
    ensures |gaps| == |s| && GapsOf(gaps, k)
  {
    match how
    case Locf => LocfGaps(s, k)
    case Nocb => NocbGaps(s, k)
    case Linear => EmptyGaps(s, k)
  }

  /** One asset's entries upsampled: the slots inserted, then the linear
      fill run over the whole list, whatever the method. */
  function UpsampleEntries(s: seq<Entry>, k: nat, how: InterpolationMethod): (r: Result<seq<Entry>>)
    ensures r.Ok? ==> |r.value| == Slot(|s|, k + 1)
  {
    ExpandLength(s, GapsFor(s, k, how), k);
    LinearFill(Expand(s, GapsFor(s, k, how)))
  }

  /** The upsampling branch: k = 60 / minutes - 1 slots after every anchor,
      spaced by the target interval on the axis and filled by the method in
      every asset's list. */
  function Upsampled(resp: Response, target: TimeInterval, how: InterpolationMethod): (r: Result<Response>)
    requires Aligned(resp) && Coarser(Hour1, target)
    ensures r.Ok? ==>
      Aligned(r.value) && |r.value.timestamps| == Slot(|resp.timestamps|, InsertCount(target) + 1)
    ensures r.Ok? ==> r.value.interval == resp.interval && r.value.assets.Keys == resp.assets.Keys
  {
    var k := InsertCount(target);
    var gaps := TimeGaps(resp.timestamps, k, Minutes(target) * 60);
    ExpandLength(resp.timestamps, gaps, k);
    match AllOk(map a | a in resp.assets :: UpsampleEntries(resp.assets[a], k, how))
    case Raised => Raised
    case Ok(assets) => Ok(Response(resp.interval, Expand(resp.timestamps, gaps), assets))
  }

  /** `resample_data` with the corrected NOCB fill and the intervals ordered
      by duration. `shift` adds the target interval's delta to an instant.
      An empty axis and the hourly target leave the response as it is; any
      result keeps the interval field and the asset names, and keeps every
      asset's list as long as the axis. */
  function ResampleData(target: TimeInterval, how: InterpolationMethod, mode: SamplingMode,
                        resp: Response, shift: Time -> Time): (r: Result<Response>)
    requires Aligned(resp) && Advances(shift)
    ensures |resp.timestamps| == 0 || target == Hour1 ==> r == Ok(resp)
    ensures r.Ok? ==> Aligned(r.value)
    ensures r.Ok? ==> r.value.interval == resp.interval && r.value.assets.Keys == resp.assets.Keys
  {
    if |resp.timestamps| == 0 then Ok(resp)
    else if Coarser(target, Hour1) then Downsampled(resp, mode, shift)
    else if Coarser(Hour1, target) then Upsampled(resp, target, how)
    else Ok(resp)
  }

  // ---------------------------------------------------------------------
  // Downsampling.

  /** What the collapsed assets are, asset by asset. */
  lemma CollapsedAssets(resp: Response, mode: SamplingMode, shift: Time -> Time, a: string)
    requires Aligned(resp) && |resp.timestamps| > 0 && Advances(shift)
    requires a in resp.assets
    ensures var ws := Split(resp.timestamps, shift);
      Downsampled(resp, mode, shift).Ok? ==>
        Collapse(resp.assets[a], ws, mode) == Ok(Downsampled(resp, mode, shift).value.assets[a])
  {
  }

  /** Downsampling raises only when merging some window of some asset
      does. */
  lemma DownsampledRaises(resp: Response, mode: SamplingMode, shift: Time -> Time)
    requires Aligned(resp) && |resp.timestamps| > 0 && Advances(shift)
    requires Downsampled(resp, mode, shift).Raised?
    ensures var ws := Split(resp.timestamps, shift);
      exists a, w :: a in resp.assets && 0 <= w < |ws| && MergeWindow(resp.assets[a], ws[w], mode).Raised?
  {
    var ws := Split(resp.timestamps, shift);
    var m := CollapseAssets(resp.assets, ws, |resp.timestamps|, mode);
    assert !AllOk(m).Ok?;
    var a :| a in m && m[a].Raised?;
    assert Collapse(resp.assets[a], ws, mode).Raised?;
    CollapseSpec(resp.assets[a], ws, mode);
  }

  /** The merged entries of a successful downsampling. */
  lemma DownsampledValues(resp: Response, mode: SamplingMode, shift: Time -> Time)
    requires Aligned(resp) && |resp.timestamps| > 0 && Advances(shift)
    requires Downsampled(resp, mode, shift).Ok?
    ensures var ws, d := Split(resp.timestamps, shift), Downsampled(resp, mode, shift).value;
      && (forall a, w :: a in resp.assets && 0 <= w < |ws| ==> MergeWindow(resp.assets[a], ws[w], mode).Ok?)
      && (forall a, w :: a in resp.assets && 0 <= w < |ws| ==>
            |d.assets[a]| == |ws| && d.assets[a][w] == MergeWindow(resp.assets[a], ws[w], mode).value)
  {
    var ws := Split(resp.timestamps, shift);
    forall a | a in resp.assets
      ensures Collapse(resp.assets[a], ws, mode) == Ok(Downsampled(resp, mode, shift).value.assets[a])
      ensures forall w :: 0 <= w < |ws| ==> MergeWindow(resp.assets[a], ws[w], mode).Ok?
      ensures forall w :: 0 <= w < |ws| ==>
        Downsampled(resp, mode, shift).value.assets[a][w] == MergeWindow(resp.assets[a], ws[w], mode).value
    {
      CollapsedAssets(resp, mode, shift, a);
      CollapseSpec(resp.assets[a], ws, mode);
    }
  }

  /** The downsampling branch window by window. */
  lemma DownsampledWindows(resp: Response, mode: SamplingMode, shift: Time -> Time)
    requires Aligned(resp) && |resp.timestamps| > 0 && Advances(shift)
    ensures var ws, d := Split(resp.timestamps, shift), Downsampled(resp, mode, shift);
      && (d.Ok? <==> forall a, w :: a in resp.assets && 0 <= w < |ws| ==>
            MergeWindow(resp.assets[a], ws[w], mode).Ok?)
      && (d.Ok? ==> d.value.timestamps == Firsts(resp.timestamps, ws))
      && (d.Ok? ==> forall a, w :: a in resp.assets && 0 <= w < |ws| ==>
            |d.value.assets[a]| == |ws|
            && d.value.assets[a][w] == MergeWindow(resp.assets[a], ws[w], mode).value)
  {
    var ws := Split(resp.timestamps, shift);
    if Downsampled(resp, mode, shift).Ok? {
      DownsampledValues(resp, mode, shift);
    } else {
      DownsampledRaises(resp, mode, shift);
    }
  }

  /** Downsampling keeps each window's first timestamp and, in every asset,
      the window's merged entry; it raises exactly when merging some window
      of some asset raises. */
  lemma DownsampleWindows(target: TimeInterval, how: InterpolationMethod, mode: SamplingMode,
                          resp: Response, shift: Time -> Time)
    requires Aligned(resp) && Advances(shift)
    requires |resp.timestamps| > 0 && Coarser(target, Hour1)
    ensures var ws := Split(resp.timestamps, shift);
      var r := ResampleData(target, how, mode, resp, shift);
      && (r.Ok? <==> forall a, w :: a in resp.assets && 0 <= w < |ws| ==>
            MergeWindow(resp.assets[a], ws[w], mode).Ok?)
      && (r.Ok? ==> r.value.timestamps == Firsts(resp.timestamps, ws))
      && (r.Ok? ==> forall a, w :: a in resp.assets && 0 <= w < |ws| ==>
            |r.value.assets[a]| == |ws|
            && r.value.assets[a][w] == MergeWindow(resp.assets[a], ws[w], mode).value)
  {
    assert ResampleData(target, how, mode, resp, shift) == Downsampled(resp, mode, shift);
    DownsampledWindows(resp, mode, shift);
  }

  /** Holding the first value never raises: the result is the first
      timestamp and, in every asset, the first entry of each window. */
  lemma HoldFirstDownsample(target: TimeInterval, how: InterpolationMethod, resp: Response,
                            shift: Time -> Time)
    requires Aligned(resp) && Advances(shift)
    requires |resp.timestamps| > 0 && Coarser(target, Hour1)
    ensures var ws := Split(resp.timestamps, shift);
      ResampleData(target, how, HoldFirst, resp, shift)
        == Ok(Response(resp.interval, Firsts(resp.timestamps, ws),
                       map a | a in resp.assets :: Firsts(resp.assets[a], ws)))
  {
    var ws := Split(resp.timestamps, shift);
    var d := Downsampled(resp, HoldFirst, shift);
    assert ResampleData(target, how, HoldFirst, resp, shift) == d;
    var m := map a | a in resp.assets :: Collapse(resp.assets[a], ws, HoldFirst);
    forall a | a in m
      ensures m[a] == Ok(Firsts(resp.assets[a], ws))
    {
      HoldFirstKeepsFirsts(resp.assets[a], ws);
    }
    AllOkOfOks(m, map a | a in resp.assets :: Firsts(resp.assets[a], ws));
  }

  // ---------------------------------------------------------------------
  // Upsampling.

  /** Slot i of anchor j's block on the upsampled axis. */
  lemma AxisAt(ts: seq<Time>, k: nat, step: int, j: nat, i: nat)
    requires j < |ts| && i <= k
    ensures Pos(j, i, k) < |Expand(ts, TimeGaps(ts, k, step))|
    ensures Expand(ts, TimeGaps(ts, k, step))[Pos(j, i, k)] == ts[j] + i * step
  {
    ExpandAt(ts, TimeGaps(ts, k, step), k, j, i);
  }

  /** The upsampled axis: k = 60 / minutes - 1 slots after every anchor;
      slot i of anchor j's block, at index j * (k + 1) + i, holds the
      anchor's timestamp plus i target intervals, after the last anchor
      too. */
  lemma UpsampleAxis(target: TimeInterval, how: InterpolationMethod, mode: SamplingMode,
                     resp: Response, shift: Time -> Time)
    requires Aligned(resp) && Advances(shift)
    requires |resp.timestamps| > 0 && Coarser(Hour1, target)
    ensures var r := ResampleData(target, how, mode, resp, shift);
      var ts, k, step := resp.timestamps, InsertCount(target), Minutes(target) * 60;
      r.Ok? ==>
        && |r.value.timestamps| == |ts| * (k + 1)
        && (forall j, i :: 0 <= j < |ts| && 0 <= i <= k ==>
              Pos(j, i, k) < |r.value.timestamps| && r.value.timestamps[Pos(j, i, k)] == ts[j] + i * step)
  {
    var ts, k, step := resp.timestamps, InsertCount(target), Minutes(target) * 60;
    var r := ResampleData(target, how, mode, resp, shift);
    assert r == Upsampled(resp, target, how);
    if r.Ok? {
      SlotIsProduct(|ts|, k + 1);
      forall j, i | 0 <= j < |ts| && 0 <= i <= k
        ensures Pos(j, i, k) < |r.value.timestamps| && r.value.timestamps[Pos(j, i, k)] == ts[j] + i * step
      {
        AxisAt(ts, k, step, j, i);
      }
    }
  }

  /** The upsampled response carries every asset's upsampled entries, and
      exists exactly when none of them raises. */
  lemma UpsampledAssets(resp: Response, target: TimeInterval, how: InterpolationMethod)
    requires Aligned(resp) && Coarser(Hour1, target)
    ensures var k := InsertCount(target);
      && (Upsampled(resp, target, how).Ok? <==>
            forall a :: a in resp.assets ==> UpsampleEntries(resp.assets[a], k, how).Ok?)
      && (Upsampled(resp, target, how).Ok? ==> forall a :: a in resp.assets ==>
            UpsampleEntries(resp.assets[a], k, how) == Ok(Upsampled(resp, target, how).value.assets[a]))
  {
    var k := InsertCount(target);
    var m := map a | a in resp.assets :: UpsampleEntries(resp.assets[a], k, how);
    var u := Upsampled(resp, target, how);
    assert u.Ok? <==> AllOk(m).Ok?;
    assert u.Ok? ==> u.value.assets == AllOk(m).value;
    assert forall a :: a in resp.assets ==> m[a] == UpsampleEntries(resp.assets[a], k, how);
  }

  /** LOCF, one asset: with no entry empty, every slot of anchor j's block
      holds anchor j, and the linear pass changes nothing. */
  lemma LocfEntries(s: seq<Entry>, k: nat)
    requires AllFilled(s)
    ensures UpsampleEntries(s, k, Locf).Ok?
    ensures forall j, i :: 0 <= j < |s| && 0 <= i <= k ==>
      Pos(j, i, k) < |UpsampleEntries(s, k, Locf).value|
      && UpsampleEntries(s, k, Locf).value[Pos(j, i, k)] == s[j]
  {
    LocfUntouched(s, k);
    forall j, i | 0 <= j < |s| && 0 <= i <= k
      ensures Pos(j, i, k) < |UpsampleEntries(s, k, Locf).value|
      ensures UpsampleEntries(s, k, Locf).value[Pos(j, i, k)] == s[j]
    {
      LocfAt(s, k, j, i);
    }
  }

  /** LOCF, one slot of one asset. */
  lemma LocfAt(s: seq<Entry>, k: nat, j: nat, i: nat)
    requires AllFilled(s) && j < |s| && i <= k
    ensures UpsampleEntries(s, k, Locf).Ok?
    ensures Pos(j, i, k) < |UpsampleEntries(s, k, Locf).value|
    ensures UpsampleEntries(s, k, Locf).value[Pos(j, i, k)] == s[j]
  {
    LocfUntouched(s, k);
    ExpandAt(s, LocfGaps(s, k), k, j, i);
  }

  /** NOCB, one asset: with no entry empty, the anchors stay, the slots
      after anchor j hold anchor j + 1, those after the last anchor stay
      empty, and the linear pass changes nothing. */
  lemma NocbEntries(s: seq<Entry>, k: nat)
    requires AllFilled(s)
    ensures UpsampleEntries(s, k, Nocb).Ok?
    ensures forall j, i :: 0 <= j < |s| && 0 <= i <= k ==>
      && Pos(j, i, k) < |UpsampleEntries(s, k, Nocb).value|
      && UpsampleEntries(s, k, Nocb).value[Pos(j, i, k)]
           == if i == 0 then s[j] else if j + 1 < |s| then s[j + 1] else map[]
  {
    NocbUntouched(s, k);
    forall j, i | 0 <= j < |s| && 0 <= i <= k
      ensures && Pos(j, i, k) < |UpsampleEntries(s, k, Nocb).value|
              && UpsampleEntries(s, k, Nocb).value[Pos(j, i, k)]
                   == if i == 0 then s[j] else if j + 1 < |s| then s[j + 1] else map[]
    {
      NocbAt(s, k, j, i);
    }
  }

  /** NOCB, one slot of one asset. */
  lemma NocbAt(s: seq<Entry>, k: nat, j: nat, i: nat)
    requires AllFilled(s) && j < |s| && i <= k
    ensures UpsampleEntries(s, k, Nocb).Ok?
    ensures && Pos(j, i, k) < |UpsampleEntries(s, k, Nocb).value|
            && UpsampleEntries(s, k, Nocb).value[Pos(j, i, k)]
                 == if i == 0 then s[j] else if j + 1 < |s| then s[j + 1] else map[]
  {
    NocbUntouched(s, k);
    ExpandAt(s, NocbGaps(s, k), k, j, i);
  }

  /** Linear, one asset: with no entry empty and at least one slot per gap,
      the fill raises exactly when some anchor has a variable the next
      anchor lacks; otherwise the anchors stay, the slots between two
      anchors take the evenly spaced points between them, and those after
      the last anchor stay empty. */
  lemma LinearEntries(s: seq<Entry>, k: nat)
    requires AllFilled(s) && k > 0
    ensures UpsampleEntries(s, k, Linear).Ok? <==> Nested(s)
    ensures UpsampleEntries(s, k, Linear).Ok? ==> forall j, i :: 0 <= j < |s| && 0 <= i <= k ==>
      && Pos(j, i, k) < |UpsampleEntries(s, k, Linear).value|
      && UpsampleEntries(s, k, Linear).value[Pos(j, i, k)] == if i == 0 then s[j] else InterpSlot(s, k, j, i)
  {
    LinearClosedForm(s, k);
    InterpLayoutOf(s, k);
  }

  /** Linear, one slot of one asset whose anchors nest. */
  lemma LinearAt(s: seq<Entry>, k: nat, j: nat, i: nat)
    requires AllFilled(s) && Nested(s) && j < |s| && i <= k
    ensures UpsampleEntries(s, k, Linear).Ok?
    ensures && Pos(j, i, k) < |UpsampleEntries(s, k, Linear).value|
            && UpsampleEntries(s, k, Linear).value[Pos(j, i, k)]
                 == if i == 0 then s[j] else InterpSlot(s, k, j, i)
  {
    LinearClosedForm(s, k);
    InterpSlotOf(s, k, j, i);
  }

  /** A non-empty response and a coarser target take the downsampling
      branch. */
  lemma DownsampleBranch(target: TimeInterval, how: InterpolationMethod, mode: SamplingMode,
                         resp: Response, shift: Time -> Time)
    requires Aligned(resp) && Advances(shift)
    requires |resp.timestamps| > 0 && Coarser(target, Hour1)
    ensures ResampleData(target, how, mode, resp, shift) == Downsampled(resp, mode, shift)
  {
  }

  /** The upsampling branch of resample_data, in terms of the assets. */
  lemma UpsampleBranch(target: TimeInterval, how: InterpolationMethod, mode: SamplingMode,
                       resp: Response, shift: Time -> Time)
    requires Aligned(resp) && Advances(shift)
    requires |resp.timestamps| > 0 && Coarser(Hour1, target)
    ensures var r, k := ResampleData(target, how, mode, resp, shift), InsertCount(target);
      && (r.Ok? <==> forall a :: a in resp.assets ==> UpsampleEntries(resp.assets[a], k, how).Ok?)
      && (r.Ok? ==> forall a :: a in resp.assets ==>
            UpsampleEntries(resp.assets[a], k, how) == Ok(r.value.assets[a]))
  {
    assert ResampleData(target, how, mode, resp, shift) == Upsampled(resp, target, how);
    UpsampledAssets(resp, target, how);
  }

  /** Upsampling by LOCF: with no entry empty it never raises, and slot i
      of anchor j's block holds anchor j in every asset. */
  lemma LocfUpsample(target: TimeInterval, mode: SamplingMode, resp: Response, shift: Time -> Time)
    requires Aligned(resp) && Advances(shift)
    requires |resp.timestamps| > 0 && Coarser(Hour1, target)
    requires forall a :: a in resp.assets ==> AllFilled(resp.assets[a])
    ensures var r, k := ResampleData(target, Locf, mode, resp, shift), InsertCount(target);
      && r.Ok?
      && forall a, j, i :: a in resp.assets && 0 <= j < |resp.timestamps| && 0 <= i <= k ==>
           Pos(j, i, k) < |r.value.assets[a]| && r.value.assets[a][Pos(j, i, k)] == resp.assets[a][j]
  {
    var r, k := ResampleData(target, Locf, mode, resp, shift), InsertCount(target);
    UpsampleBranch(target, Locf, mode, resp, shift);
    forall a | a in resp.assets
      ensures UpsampleEntries(resp.assets[a], k, Locf).Ok?
    {
      LocfAt(resp.assets[a], k, 0, 0);
    }
    forall a, j, i | a in resp.assets && 0 <= j < |resp.timestamps| && 0 <= i <= k
      ensures Pos(j, i, k) < |r.value.assets[a]| && r.value.assets[a][Pos(j, i, k)] == resp.assets[a][j]
    {
      LocfAt(resp.assets[a], k, j, i);
    }
  }

  /** Upsampling by NOCB, as evidently intended: with no entry empty it
      never raises; in every asset the anchors stay, the slots after anchor
      j hold anchor j + 1 and those after the last anchor stay empty. */
  lemma NocbUpsample(target: TimeInterval, mode: SamplingMode, resp: Response, shift: Time -> Time)
    requires Aligned(resp) && Advances(shift)
    requires |resp.timestamps| > 0 && Coarser(Hour1, target)
    requires forall a :: a in resp.assets ==> AllFilled(resp.assets[a])
    ensures var r, k, n :=
      ResampleData(target, Nocb, mode, resp, shift), InsertCount(target), |resp.timestamps|;
      && r.Ok?
      && forall a, j, i :: a in resp.assets && 0 <= j < n && 0 <= i <= k ==>
           && Pos(j, i, k) < |r.value.assets[a]|
           && r.value.assets[a][Pos(j, i, k)]
                == if i == 0 then resp.assets[a][j] else if j + 1 < n then resp.assets[a][j + 1] else map[]
  {
    var r, k, n := ResampleData(target, Nocb, mode, resp, shift), InsertCount(target), |resp.timestamps|;
    UpsampleBranch(target, Nocb, mode, resp, shift);
    forall a | a in resp.assets
      ensures UpsampleEntries(resp.assets[a], k, Nocb).Ok?
    {
      NocbAt(resp.assets[a], k, 0, 0);
    }
    forall a, j, i | a in resp.assets && 0 <= j < n && 0 <= i <= k
      ensures && Pos(j, i, k) < |r.value.assets[a]|
              && r.value.assets[a][Pos(j, i, k)]
                   == if i == 0 then resp.assets[a][j] else if j + 1 < n then resp.assets[a][j + 1] else map[]
    {
      NocbAt(resp.assets[a], k, j, i);
    }
  }

  /** Upsampling by linear interpolation: with no entry empty it raises
      exactly when, in some asset, an anchor has a variable the next anchor
      lacks; otherwise the anchors stay, the slots between two anchors take
      the evenly spaced points between them, and those after the last
      anchor stay empty. */
  lemma LinearUpsample(target: TimeInterval, mode: SamplingMode, resp: Response, shift: Time -> Time)
    requires Aligned(resp) && Advances(shift)
    requires |resp.timestamps| > 0 && Coarser(Hour1, target)
    requires forall a :: a in resp.assets ==> AllFilled(resp.assets[a])
    ensures var r, k, n :=
      ResampleData(target, Linear, mode, resp, shift), InsertCount(target), |resp.timestamps|;
      && (r.Ok? <==> forall a :: a in resp.assets ==> Nested(resp.assets[a]))
      && (r.Ok? ==> forall a, j, i :: a in resp.assets && 0 <= j < n && 0 <= i <= k ==>
           && Pos(j, i, k) < |r.value.assets[a]|
           && r.value.assets[a][Pos(j, i, k)]
                == if i == 0 then resp.assets[a][j] else InterpSlot(resp.assets[a], k, j, i))
  {
    var r, k, n := ResampleData(target, Linear, mode, resp, shift), InsertCount(target), |resp.timestamps|;
    UpsampleBranch(target, Linear, mode, resp, shift);
    forall a | a in resp.assets
      ensures UpsampleEntries(resp.assets[a], k, Linear).Ok? <==> Nested(resp.assets[a])
    {
      LinearEntries(resp.assets[a], k);
    }
    if r.Ok? {
      forall a, j, i | a in resp.assets && 0 <= j < n && 0 <= i <= k
        ensures && Pos(j, i, k) < |r.value.assets[a]|
                && r.value.assets[a][Pos(j, i, k)]
                     == if i == 0 then resp.assets[a][j] else InterpSlot(resp.assets[a], k, j, i)
      {
        LinearEntries(resp.assets[a], k);
        LinearAt(resp.assets[a], k, j, i);
      }
    }
  }

  /** The upsampled response, once the assets are known. */
  lemma UpsampledIs(resp: Response, target: TimeInterval, how: InterpolationMethod,
                    v: map<string, seq<Entry>>)
    requires Aligned(resp) && Coarser(Hour1, target)
    requires AllOk(map a | a in resp.assets :: UpsampleEntries(resp.assets[a], InsertCount(target), how))
          == Ok(v)
    ensures Upsampled(resp, target, how)
         == Ok(Response(resp.interval,
                        Expand(resp.timestamps, TimeGaps(resp.timestamps, InsertCount(target), Minutes(target) * 60)),
                        v))
  {
  }

  // ---------------------------------------------------------------------
  // The source's loops as methods, run asset by asset.

  /** The downsampling loops over the assets: each asset's list is merged
      in place, and the first raising window ends the call. */
  method CollapseAll(assets: map<string, seq<Entry>>, ws: seq<Range>, n: nat, mode: SamplingMode)
    returns (r: Result<map<string, seq<Entry>>>)
    requires Tiles(ws, n)
    requires forall a :: a in assets ==> |assets[a]| == n
    ensures r == AllOk(CollapseAssets(assets, ws, n, mode))
  {
    ghost var m := CollapseAssets(assets, ws, n, mode);
    var left := assets.Keys;
    var done: map<string, seq<Entry>> := map[];
    while left != {}
      invariant left <= m.Keys
      invariant done.Keys == m.Keys - left
      invariant forall b :: b in done ==> m[b] == Ok(done[b])
      decreases left
    {
      var a :| a in left;
      var e := MergeInPlace(assets[a], ws, mode);
      assert m[a] == e;
      if e.Raised? {
        AllOkRaised(m, a);
        return Raised;
      }
      Record(m, done, left, a, e.value);
      done := done[a := e.value];
      left := left - {a};
    }
    AllOkOfOks(m, done);
    r := Ok(done);
  }

  /** With no slot to insert, the expansion is the list itself. */
  lemma {:induction false} ExpandNothing(s: seq<Entry>, gaps: seq<seq<Entry>>)
    requires |gaps| == |s| && GapsOf(gaps, 0)
    ensures Expand(s, gaps) == s
  {
    if |s| > 0 {
      assert GapsOf(gaps[1..], 0) by {
        assert forall j :: 0 <= j < |gaps| - 1 ==> gaps[1..][j] == gaps[j + 1];
      }
      ExpandNothing(s[1..], gaps[1..]);
      assert gaps[0] == [];
    }
  }

  /** One asset's insertion loop followed by one linear pass over the whole
      list. The source runs the pass once per anchor instead; the two agree
      when no original entry is empty. */
  method UpsampleInPlace(entries: seq<Entry>, k: nat, how: InterpolationMethod)
    returns (r: Result<seq<Entry>>)
    ensures how != Nocb || k == 0 || |entries| == 0 ==> r == UpsampleEntries(entries, k, how)
    ensures how == Nocb && k > 0 && |entries| > 0 ==> r.Raised?
  {
    var e := InsertEntries(entries, k, how);
    if e.Raised? {
      return Raised;
    }
    if how == Nocb {
      ExpandNothing(entries, NocbGaps(entries, k));
    }
    r := LinearFill(e.value);
  }

  /** The upsampling loops over the assets. Every method but NOCB computes
      the model's upsampling; NOCB raises as soon as an asset has an entry
      and there is a slot to insert. */
  method UpsampleAll(assets: map<string, seq<Entry>>, k: nat, how: InterpolationMethod)
    returns (r: Result<map<string, seq<Entry>>>)
    ensures r.Ok? ==> r == AllOk(map a | a in assets :: UpsampleEntries(assets[a], k, how))
    ensures how != Nocb || k == 0 ==> r == AllOk(map a | a in assets :: UpsampleEntries(assets[a], k, how))
    ensures how == Nocb && k > 0 ==> (r.Raised? <==> exists a :: a in assets && |assets[a]| > 0)
  {
    ghost var m := map a | a in assets :: UpsampleEntries(assets[a], k, how);
    var left := assets.Keys;
    var done: map<string, seq<Entry>> := map[];
    while left != {}
      invariant left <= m.Keys
      invariant done.Keys == m.Keys - left
      invariant forall b :: b in done ==> m[b] == Ok(done[b])
      invariant how == Nocb && k > 0 ==> forall b :: b in done ==> |assets[b]| == 0
      decreases left
    {
      var a :| a in left;
      var e := UpsampleInPlace(assets[a], k, how);
      if e.Raised? {
        assert how != Nocb || k == 0 || |assets[a]| == 0 ==> m[a].Raised?;
        return Raised;
      }
      Record(m, done, left, a, e.value);
      done := done[a := e.value];
      left := left - {a};
    }
    AllOkOfOks(m, done);
    r := Ok(done);
  }

  /** The downsampling branch of resample_data: the range loop, then the
      reversed delete loop over the axis, then the reversed merge-and-delete
      loop over each asset in turn. The source visits every asset inside
      each window instead; the assets never read each other, so only the
      order of effects differs. */
  method DownsampleInPlace(resp: Response, mode: SamplingMode, shift: Time -> Time)
    returns (r: Result<Response>)
    requires Aligned(resp) && |resp.timestamps| > 0 && Advances(shift)
    ensures r == Downsampled(resp, mode, shift)
  {
    var ranges := CollectRanges(resp.timestamps, shift);
    var times := DeleteMerged(resp.timestamps, ranges);
    assert times == Firsts(resp.timestamps, ranges);
    var assets := CollapseAll(resp.assets, ranges, |resp.timestamps|, mode);
    if assets.Raised? {
      return Raised;
    }
    r := Ok(Response(resp.interval, times, assets.value));
  }

  /** The upsampling branch of resample_data: the timestamp loop, then each
      asset in turn grown and interpolated once. The source grows every
      asset inside each anchor's step instead. */
  method UpsampleAllInPlace(resp: Response, target: TimeInterval, how: InterpolationMethod)
    returns (r: Result<Response>)
    requires Aligned(resp) && |resp.timestamps| > 0 && Coarser(Hour1, target)
    ensures r.Ok? ==> r == Upsampled(resp, target, how)
    ensures how != Nocb ==> r == Upsampled(resp, target, how)
    ensures how == Nocb ==> (r.Raised? <==> resp.assets != map[])
  {
    var k := InsertCount(target);
    var times := InsertTimes(resp.timestamps, k, Minutes(target) * 60);
    var assets := UpsampleAll(resp.assets, k, how);
    if how == Nocb && resp.assets != map[] {
      var a :| a in resp.assets;
      assert |resp.assets[a]| > 0;
    }
    if assets.Raised? {
      return Raised;
    }
    r := Ok(Response(resp.interval, times, assets.value));
  }

  /** resample_data's loops, run asset by asset, with the intervals ordered
      by duration: the ranges collected, the axis and then each asset merged
      in place, or the axis and then each asset grown slot by slot. It
      computes the model whenever it does not raise, and raises where the
      model does, except that NOCB upsampling raises IndexError as soon as
      there is an asset. */
  method ResampleInPlace(target: TimeInterval, how: InterpolationMethod, mode: SamplingMode,
                         resp: Response, shift: Time -> Time) returns (r: Result<Response>)
    requires Aligned(resp) && Advances(shift)
    ensures r.Ok? ==> r == ResampleData(target, how, mode, resp, shift)
    ensures how != Nocb || !Coarser(Hour1, target) || |resp.timestamps| == 0 ==>
      r == ResampleData(target, how, mode, resp, shift)
    ensures how == Nocb && Coarser(Hour1, target) && |resp.timestamps| > 0 ==>
      (r.Raised? <==> resp.assets != map[])
  {
    if |resp.timestamps| == 0 {
      r := Ok(resp);
    } else if Coarser(target, Hour1) {
      r := DownsampleInPlace(resp, mode, shift);
    } else if Coarser(Hour1, target) {
      r := UpsampleAllInPlace(resp, target, how);
    } else {
      r := Ok(resp);
    }
  }
}

=== FILE: schemas.dfy ===
/**
 The value model of the schedule provider: one variable's value at one
 timestamp, the per-asset entry, the three enumerations the resampler is
 driven by, and the response shape it transforms.
 */
module Schemas {

  datatype Option<+T> = None | Some(value: T)

  /** The outcome of a resampling step: a value, or an exception escaping
      resample_data (KeyError, TypeError, AttributeError or IndexError in the
      source; which of them is raised first depends on dict iteration order,
      which is not modelled). */
  datatype Result<+T> = Ok(value: T) | Raised

  /** A variable's value: an optional float, or a three-phase record whose
      phases are independently optional. */
  datatype Value =
    | Scalar(num: Option<real>)
    | Unbalanced(a: Option<real>, b: Option<real>, c: Option<real>)

  /** A schedule entry maps variable names to values; the empty map is a legal
      entry and stands for "no data at this timestamp". */
  type Entry = map<string, Value>

  /** Timestamps are UTC instants, counted in seconds. */
  type Time = int

  datatype TimeInterval = Min5 | Min15 | Min30 | Hour1 | Day1 | Month1 | Year1

  datatype InterpolationMethod = Linear | Nocb | Locf

  datatype SamplingMode = WeightedAverage | HoldFirst

  /** One timestamp axis shared by all assets, and one entry list per asset. */
  datatype Response = Response(
    interval: TimeInterval,
    timestamps: seq<Time>,
    assets: map<string, seq<Entry>>)

  /** Nothing in the response type ties the entry lists to the axis; the
      resampler relies on every list being as long as the axis. */
  predicate Aligned(r: Response)
  {
    forall asset :: asset in r.assets ==> |r.assets[asset]| == |r.timestamps|
  }

  /** The position of an interval in its declaration, which is also its order
      by calendar duration. */
  function Rank(i: TimeInterval): (r: nat)
    ensures r < 7
    ensures i == Hour1 <==> r == 3
  {
    match i
    case Min5 => 0
    case Min15 => 1
    case Min30 => 2
    case Hour1 => 3
    case Day1 => 4
    case Month1 => 5
    case Year1 => 6
  }

  /** The comparison the resampler evidently intends by `a > b`. */
  predicate Coarser(a: TimeInterval, b: TimeInterval)
  {
    Rank(a) > Rank(b)
  }

  /** Declaration order is a strict total order: the seven members are
      distinct and any two of them compare one way or the other. */
  lemma RankIsStrictTotalOrder(a: TimeInterval, b: TimeInterval)
    ensures a == b <==> Rank(a) == Rank(b)
    ensures a != b ==> Coarser(a, b) != Coarser(b, a)
  {
  }

  /** Exactly the day, month and year intervals are coarser than the hourly
      storage interval, and exactly the three minute intervals are finer. */
  lemma CoarserThanHour(i: TimeInterval)
    ensures Coarser(i, Hour1) <==> i == Day1 || i == Month1 || i == Year1
    ensures Coarser(Hour1, i) <==> i == Min5 || i == Min15 || i == Min30
  {
  }

  /** The minutes of a sub-hour interval (the `minutes` of its delta). */
  function Minutes(i: TimeInterval): (m: nat)
    requires Coarser(Hour1, i)
    ensures 0 < m < 60 && 60 % m == 0
  {
    match i
    case Min5 => 5
    case Min15 => 15
    case Min30 => 30
  }

  /** `round(60 / minutes) - 1`: how many slots follow each hourly anchor
      when upsampling. The division is exact for every sub-hour interval, so
      the rounding never changes it. */
  function InsertCount(i: TimeInterval): (k: nat)
    requires Coarser(Hour1, i)
    ensures (k + 1) * Minutes(i) == 60
    ensures k >= 1
  {
    60 / Minutes(i) - 1
  }

  /** The string value each member carries in the source's `(str, Enum)`. */
  function Label(i: TimeInterval): string
  {
    match i
    case Min5 => "5 minutes"
    case Min15 => "15 minutes"
    case Min30 => "30 minutes"
    case Hour1 => "1 hour"
    case Day1 => "1 day"
    case Month1 => "1 month"
    case Year1 => "1 year"
  }

  /** Python's `<` on `str`: lexicographic by code point. */
  predicate StrLess(a: string, b: string)
  {
    if |a| == 0 then |b| > 0
    else if |b| == 0 then false
    else a[0] < b[0] || (a[0] == b[0] && StrLess(a[1..], b[1..]))
  }

  /** `a > b` on the enum as declared: a `(str, Enum)` with no ordering of its
      own inherits the comparison of its string values. */
  predicate StrEnumGreater(a: TimeInterval, b: TimeInterval)
  {
    StrLess(Label(b), Label(a))
  }

  /** Compared by their strings, "1 day" sorts before "1 hour" and
      "15 minutes" after it: the day interval would take the upsampling branch
      and the quarter hour the downsampling one. */
  lemma StrEnumOrderMisroutes()
    ensures !StrEnumGreater(Day1, Hour1) && Coarser(Day1, Hour1)
    ensures StrEnumGreater(Min15, Hour1) && !Coarser(Min15, Hour1)
  {
    assert Label(Day1)[2] == 'd' && Label(Hour1)[2] == 'h';
    assert StrLess(Label(Day1)[2..], Label(Hour1)[2..]);
    assert StrLess(Label(Day1)[1..], Label(Hour1)[1..]);
    assert Label(Min15)[1] == '5' && Label(Hour1)[1] == ' ';
    assert StrLess(Label(Hour1)[1..], Label(Min15)[1..]);
  }
}

=== FILE: upsample.dfy ===
/**
 Upsampling: after every hourly anchor, `k` new slots are inserted, on the
 time axis spaced by the target interval and in each asset's entry list
 filled according to the interpolation method.
 */
module Upsample {
  import opened Schemas

  /** Every anchor followed by its gap: s[0], gaps[0]..., s[1], gaps[1]...,
      and so on, including a gap after the last anchor. */
  function Expand<T>(s: seq<T>, gaps: seq<seq<T>>): seq<T>
    requires |gaps| == |s|
  {
    if |s| == 0 then [] else [s[0]] + gaps[0] + Expand(s[1..], gaps[1..])
  }

  /** All gaps have length k. */
  ghost predicate GapsOf<T>(gaps: seq<seq<T>>, k: nat)
  {
    forall j :: 0 <= j < |gaps| ==> |gaps[j]| == k
  }

  /** Where anchor j lands when every anchor is followed by b - 1 slots:
      j * b, spelled as repeated addition. */
  function Slot(j: nat, b: nat): nat
  {
    if j == 0 then 0 else b + Slot(j - 1, b)
  }

  /** Repeated addition is multiplication. */
  lemma {:induction false} SlotIsProduct(j: nat, b: nat)
    ensures Slot(j, b) == j * b
  {
    if j > 0 {
      SlotIsProduct(j - 1, b);
      assert j * b == b + (j - 1) * b;
    }
  }

  /** Later anchors land later, at least b slots apart. */
  lemma {:induction false} SlotMonotone(j: nat, j': nat, b: nat)
    requires j < j'
    ensures Slot(j, b) + b <= Slot(j', b)
    decreases j'
  {
    if j + 1 < j' {
      SlotMonotone(j, j' - 1, b);
    }
  }

  /** The expansion has k + 1 slots per anchor. */
  lemma {:induction false} ExpandLength<T>(s: seq<T>, gaps: seq<seq<T>>, k: nat)
    requires |gaps| == |s| && GapsOf(gaps, k)
    ensures |Expand(s, gaps)| == Slot(|s|, k + 1)
  {
    if |s| > 0 {
      assert GapsOf(gaps[1..], k) by {
        assert forall j :: 0 <= j < |gaps| - 1 ==> gaps[1..][j] == gaps[j + 1];
      }
      ExpandLength(s[1..], gaps[1..], k);
    }
  }

  /** Anchor j sits at slot j * (k + 1) and slot i of its gap right after
      it. */
  lemma {:induction false} ExpandAt<T>(s: seq<T>, gaps: seq<seq<T>>, k: nat, j: nat, i: nat)
    requires |gaps| == |s| && GapsOf(gaps, k)
    requires j < |s| && i <= k
    ensures Slot(j, k + 1) + i < |Expand(s, gaps)|
    ensures i == 0 ==> Expand(s, gaps)[Slot(j, k + 1)] == s[j]
    ensures i > 0 ==> Expand(s, gaps)[Slot(j, k + 1) + i] == gaps[j][i - 1]
  {
    ExpandLength(s, gaps, k);
    assert GapsOf(gaps[1..], k) by {
      assert forall j :: 0 <= j < |gaps| - 1 ==> gaps[1..][j] == gaps[j + 1];
    }
    var rest := Expand(s[1..], gaps[1..]);
    assert Expand(s, gaps) == [s[0]] + gaps[0] + rest;
    if j > 0 {
      ExpandAt(s[1..], gaps[1..], k, j - 1, i);
    }
  }

  /** Anchor j of the expansion, by its product position. */
  lemma AnchorAt<T>(s: seq<T>, gaps: seq<seq<T>>, k: nat, j: nat)
    requires |gaps| == |s| && GapsOf(gaps, k)
    requires j < |s|
    ensures j * (k + 1) < |Expand(s, gaps)| && Expand(s, gaps)[j * (k + 1)] == s[j]
  {
    ExpandAt(s, gaps, k, j, 0);
    SlotIsProduct(j, k + 1);
  }

  /** Slot i of gap j of the expansion, by its product position. */
  lemma GapSlotAt<T>(s: seq<T>, gaps: seq<seq<T>>, k: nat, j: nat, i: nat)
    requires |gaps| == |s| && GapsOf(gaps, k)
    requires j < |s| && i < k
    ensures j * (k + 1) + 1 + i < |Expand(s, gaps)| && Expand(s, gaps)[j * (k + 1) + 1 + i] == gaps[j][i]
  {
    ExpandAt(s, gaps, k, j, i + 1);
    SlotIsProduct(j, k + 1);
  }

  /** The result has n * (k + 1) slots. */
  lemma ExpandSize<T>(s: seq<T>, gaps: seq<seq<T>>, k: nat)
    requires |gaps| == |s| && GapsOf(gaps, k)
    ensures |Expand(s, gaps)| == |s| * (k + 1)
  {
    ExpandLength(s, gaps, k);
    SlotIsProduct(|s|, k + 1);
  }

  /** Splitting off the last anchor and its gap. */
  lemma {:induction false} ExpandSnoc<T>(s: seq<T>, gaps: seq<seq<T>>, m: nat)
    requires |gaps| == |s|
    requires m < |s|
    ensures Expand(s[m..], gaps[m..]) == [s[m]] + gaps[m] + Expand(s[m + 1..], gaps[m + 1..])
  {
    assert s[m..][1..] == s[m + 1..];
    assert gaps[m..][1..] == gaps[m + 1..];
  }

  /** The inserted timestamps: anchor t is followed by t + step, ...,
      t + k * step. */
  function TimeGaps(ts: seq<Time>, k: nat, step: int): (gaps: seq<seq<Time>>)
  {
    seq(|ts|, j requires 0 <= j < |ts| => seq(k, i => ts[j] + (i + 1) * step))
  }

  /** LOCF: each inserted slot repeats the anchor before it. */
  function LocfGaps(s: seq<Entry>, k: nat): seq<seq<Entry>>
  {
    seq(|s|, j requires 0 <= j < |s| => seq(k, i => s[j]))
  }

  /** NOCB, as evidently intended: each inserted slot repeats the anchor after
      it; after the last anchor there is none, and the slots stay empty. */
  function NocbGaps(s: seq<Entry>, k: nat): seq<seq<Entry>>
  {
    seq(|s|, j requires 0 <= j < |s| => seq(k, i => if j + 1 < |s| then s[j + 1] else map[]))
  }

  /** Linear: the inserted slots start out empty and are filled afterwards. */
  function EmptyGaps(s: seq<Entry>, k: nat): seq<seq<Entry>>
  {
    seq(|s|, j requires 0 <= j < |s| => seq(k, i => map[]))
  }

  /** Python's `list.insert`: x goes in front of position pos, or at the
      end when pos is past it. */
  function Insert<T>(s: seq<T>, pos: nat, x: T): seq<T>
  {
    if pos <= |s| then s[..pos] + [x] + s[pos..] else s + [x]
  }

  /** Python's `s[p]` for a non-negative index: IndexError past the end. */
  function At<T>(s: seq<T>, p: nat): Result<T>
  {
    if p < |s| then Ok(s[p]) else Raised
  }

  /** One insertion in the inner loop: putting x in front of the rest of the
      gap extends the gap by one. */
  lemma InsertStep<T>(s: seq<T>, front: seq<T>, gap: seq<T>, tail: seq<T>, i: nat, x: T)
    requires i < |gap|
    requires s == front + gap[i + 1..] + tail
    requires x == gap[i]
    ensures Insert(s, |front|, x) == front + gap[i..] + tail
  {
    assert gap[i..] == [x] + gap[i + 1..];
  }

  /** The inner timestamp loop of resample_data as written, for the anchor
      before `pos`: t + k*step, ..., t + step are each inserted right after
      it, so that they end up ascending. */
  method InsertTimeGap(r0: seq<Time>, pos: nat, k: nat, step: int) returns (r: seq<Time>)
    requires 0 < pos <= |r0|
    ensures r == r0[..pos] + seq(k, i => r0[pos - 1] + (i + 1) * step) + r0[pos..]
  {
    ghost var front, tail := r0[..pos], r0[pos..];
    ghost var gap := seq(k, i => r0[pos - 1] + (i + 1) * step);
    r := r0;
    var i := k;
    assert r0 == front + gap[k..] + tail;
    while i > 0
      invariant 0 <= i <= k
      invariant r == front + gap[i..] + tail
    {
      i := i - 1;
      assert r[pos - 1] == r0[pos - 1];
      InsertStep(r, front, gap, tail, i, r[pos - 1] + (i + 1) * step);
      r := Insert(r, pos, r[pos - 1] + (i + 1) * step);
    }
  }

  /** The timestamp loop of resample_data as written: anchors are visited
      last to first and the inserted timestamps go in after each. */
  method InsertTimes(ts: seq<Time>, k: nat, step: int) returns (r: seq<Time>)
    ensures r == Expand(ts, TimeGaps(ts, k, step))
  {
    var n := |ts|;
    ghost var gaps := TimeGaps(ts, k, step);
    r := ts;
    for index := 0 to n
      invariant r == ts[..n - index] + Expand(ts[n - index..], gaps[n - index..])
    {
      var pos := n - index;
      TimeStep(ts, k, step, pos, r);
      r := InsertTimeGap(r, pos, k, step);
    }
  }

  /** One visit of the timestamp loop: with the anchors from pos on already
      followed by their gaps, inserting the gap of the anchor at pos - 1
      extends the expanded suffix by one anchor. */
  lemma TimeStep(ts: seq<Time>, k: nat, step: int, pos: nat, r: seq<Time>)
    requires 0 < pos <= |ts|
    requires r == ts[..pos] + Expand(ts[pos..], TimeGaps(ts, k, step)[pos..])
    ensures pos <= |r|
    ensures r[..pos] + seq(k, i => r[pos - 1] + (i + 1) * step) + r[pos..]
         == ts[..pos - 1] + Expand(ts[pos - 1..], TimeGaps(ts, k, step)[pos - 1..])
  {
    var gaps := TimeGaps(ts, k, step);
    assert r[..pos] == ts[..pos] && r[pos..] == Expand(ts[pos..], gaps[pos..]);
    assert gaps[pos - 1] == seq(k, i => r[pos - 1] + (i + 1) * step);
    ExpandSnoc(ts, gaps, pos - 1);
    assert ts[..pos] == ts[..pos - 1] + [ts[pos - 1]];
  }

  /** The slots the entry loop of resample_data inserts after the anchor
      at pos - 1, as written: copies of the slot before (LOCF), copies of
      the slot after (NOCB), or empty entries (otherwise). With nothing after
      the anchor, NOCB's first read is one past the end and raises
      IndexError. */
  function GapAsWritten(s: seq<Entry>, pos: nat, k: nat, how: InterpolationMethod): Result<seq<Entry>>
    requires 0 < pos <= |s|
  {
    match how
    case Locf => Ok(seq(k, i => s[pos - 1]))
    case Nocb => if k == 0 then Ok([]) else if pos < |s| then Ok(seq(k, i => s[pos])) else Raised
    case Linear => Ok(seq(k, i => map[]))
  }

  /** The inner loop of resample_data as written, for one asset and the
      anchor before `pos`: k single insertions at the same position, each
      reading its neighbour afresh, amount to inserting the whole gap at
      once. */
  method InsertGap(s0: seq<Entry>, pos: nat, k: nat, how: InterpolationMethod) returns (r: Result<seq<Entry>>)
    requires 0 < pos <= |s0|
    ensures GapAsWritten(s0, pos, k, how).Raised? <==> r.Raised?
    ensures r.Ok? ==> r.value == s0[..pos] + GapAsWritten(s0, pos, k, how).value + s0[pos..]
  {
    var g := GapAsWritten(s0, pos, k, how);
    var s := s0;
    var i := k;
    while i > 0
      invariant 0 <= i <= k
      invariant g.Ok? ==> |g.value| == k && s == s0[..pos] + g.value[i..] + s0[pos..]
      invariant g.Raised? ==> s == s0 && i == k
    {
      i := i - 1;
      if how == Locf {
        InsertStep(s, s0[..pos], g.value, s0[pos..], i, s[pos - 1]);
        s := Insert(s, pos, s[pos - 1]);
      } else if how == Nocb {
        match At(s, pos)
        case Raised => return Raised;
        case Ok(next) =>
          InsertStep(s, s0[..pos], g.value, s0[pos..], i, next);
          s := Insert(s, pos, next);
      } else {
        InsertStep(s, s0[..pos], g.value, s0[pos..], i, map[]);
        s := Insert(s, pos, map[]);
      }
    }
    assert g.Ok?;
    r := Ok(s);
  }

  /** One visit of the entry loop, for LOCF and the empty fill: with the
      anchors from pos on already followed by their gaps, inserting the gap
      of the anchor at pos - 1 extends the expanded suffix by one anchor. */
  lemma GrowStep(entries: seq<Entry>, k: nat, how: InterpolationMethod, gaps: seq<seq<Entry>>,
                 pos: nat, s: seq<Entry>)
    requires how != Nocb
    requires gaps == if how == Locf then LocfGaps(entries, k) else EmptyGaps(entries, k)
    requires 0 < pos <= |entries|
    requires s == entries[..pos] + Expand(entries[pos..], gaps[pos..])
    ensures GapAsWritten(s, pos, k, how).Ok?
    ensures s[..pos] + GapAsWritten(s, pos, k, how).value + s[pos..]
         == entries[..pos - 1] + Expand(entries[pos - 1..], gaps[pos - 1..])
  {
    assert s[..pos] == entries[..pos];
    assert s[pos - 1] == entries[pos - 1];
    assert GapAsWritten(s, pos, k, how).value == gaps[pos - 1];
    assert s[pos..] == Expand(entries[pos..], gaps[pos..]);
    ExpandSnoc(entries, gaps, pos - 1);
    assert entries[..pos] == entries[..pos - 1] + [entries[pos - 1]];
  }

  /** One visit of the entry loop, for NOCB: with nothing to insert the list
      stays as it is, and otherwise the first read past the last anchor
      raises. */
  lemma NocbStep(s: seq<Entry>, pos: nat, k: nat)
    requires 0 < pos <= |s|
    ensures k == 0 ==> GapAsWritten(s, pos, k, Nocb) == Ok([]) && s[..pos] + [] + s[pos..] == s
    ensures k > 0 && pos == |s| ==> GapAsWritten(s, pos, k, Nocb).Raised?
  {
    assert s[..pos] + s[pos..] == s;
  }

  /** The entry loop of resample_data as written, for one asset: anchors are
      visited last to first and each gets its k slots. LOCF and the empty
      fill yield every anchor followed by its gap; NOCB starts at the last
      anchor, whose following slot is one past the end of the list, so it
      raises IndexError as soon as there is anything to insert. */
  method InsertEntries(entries: seq<Entry>, k: nat, how: InterpolationMethod) returns (r: Result<seq<Entry>>)
    ensures how == Locf ==> r == Ok(Expand(entries, LocfGaps(entries, k)))
    ensures how == Linear ==> r == Ok(Expand(entries, EmptyGaps(entries, k)))
    ensures how == Nocb ==> (r.Raised? <==> |entries| > 0 && k > 0)
    ensures how == Nocb && r.Ok? ==> r.value == entries
  {
    var n := |entries|;
    var gaps := if how == Locf then LocfGaps(entries, k) else EmptyGaps(entries, k);
    var s := entries;
    for index := 0 to n
      invariant how != Nocb ==> s == entries[..n - index] + Expand(entries[n - index..], gaps[n - index..])
      invariant how == Nocb ==> s == entries && (k > 0 ==> index == 0)
    {
      var pos := n - index;
      var next := InsertGap(s, pos, k, how);
      if how == Nocb {
        NocbStep(s, pos, k);
      }
      if next.Raised? {
        return Raised;
      }
      if how != Nocb {
        GrowStep(entries, k, how, gaps, pos, s);
      }
      s := next.value;
    }
    if how != Nocb {
      assert entries[..0] + Expand(entries[0..], gaps[0..]) == Expand(entries, gaps) by {
        assert entries[0..] == entries && gaps[0..] == gaps;
      }
    }
    r := Ok(s);
  }
}

=== FILE: windows.dfy ===
/**
 The first phase of downsampling: splitting the time axis into the runs of
 consecutive slots that collapse into one output slot.
 */
module Windows {
  import opened Schemas

  /** The half-open index range [start, stop) of one window. */
  datatype Range = Range(start: nat, stop: nat)

  /** Adding the target interval's delta moves every instant strictly later. */
  ghost predicate Advances(shift: Time -> Time)
  {
    forall t :: t < shift(t)
  }

  /** The windows tile [lo, n): the first starts at lo, each is non-empty,
      lies inside the axis and ends where the next begins, and the last ends
      at n. */
  ghost predicate TilesFrom(ws: seq<Range>, lo: nat, n: nat)
  {
    && |ws| > 0
    && ws[0].start == lo
    && ws[|ws| - 1].stop == n
    && (forall w :: 0 <= w < |ws| ==> ws[w].start < ws[w].stop <= n)
    && (forall w :: 0 <= w < |ws| - 1 ==> ws[w].stop == ws[w + 1].start)
  }

  /** The windows tile the whole axis [0, n). */
  ghost predicate Tiles(ws: seq<Range>, n: nat)
  {
    TilesFrom(ws, 0, n)
  }

  /** Where the windows break: a later slot stays in its window while it is
      earlier than the window's first timestamp plus the delta, and a window
      opens exactly at the first slot that is not. */
  ghost predicate BreaksAt(ts: seq<Time>, shift: Time -> Time, ws: seq<Range>)
    requires forall w :: 0 <= w < |ws| ==> ws[w].start < ws[w].stop <= |ts|
  {
    && (forall w, i :: 0 <= w < |ws| && ws[w].start < i < ws[w].stop ==>
          ts[i] < shift(ts[ws[w].start]))
    && (forall w :: 0 < w < |ws| ==> ts[ws[w].start] >= shift(ts[ws[w - 1].start]))
  }

  /** The ranges the scan collects from slot `index` on, with the current
      window opened at `start`. */
  function Scan(ts: seq<Time>, shift: Time -> Time, start: nat, index: nat): (ws: seq<Range>)
    requires start <= index <= |ts| && start < |ts|
    decreases |ts| - index
  {
    if index == |ts| then [Range(start, |ts|)]
    else if ts[index] >= shift(ts[start]) then
      [Range(start, index)] + Scan(ts, shift, index, index + 1)
    else Scan(ts, shift, start, index + 1)
  }

  /** The windows of a non-empty time axis: they tile the axis and break
      exactly where the delta rule says. */
  function Split(ts: seq<Time>, shift: Time -> Time): (ws: seq<Range>)
    requires |ts| > 0
    requires Advances(shift)
    ensures Tiles(ws, |ts|)
    ensures BreaksAt(ts, shift, ws)
  {
    ScanShape(ts, shift, 0, 0);
    Scan(ts, shift, 0, 0)
  }

  /** What a scan from `index` produces: windows tiling [start, |ts|) whose
      breaks follow the delta rule, given that no slot in (start, index)
      broke the current window. */
  lemma {:induction false} ScanShape(ts: seq<Time>, shift: Time -> Time, start: nat, index: nat)
    requires Advances(shift)
    requires start <= index <= |ts| && start < |ts|
    requires forall i :: start < i < index ==> ts[i] < shift(ts[start])
    ensures TilesFrom(Scan(ts, shift, start, index), start, |ts|)
    ensures BreaksAt(ts, shift, Scan(ts, shift, start, index))
    decreases |ts| - index
  {
    if index == |ts| {
    } else if ts[index] >= shift(ts[start]) {
      assert ts[start] < shift(ts[start]);
      ScanShape(ts, shift, index, index + 1);
      var rest := Scan(ts, shift, index, index + 1);
      assert Scan(ts, shift, start, index) == [Range(start, index)] + rest;
      PrependWindow(ts, shift, start, index, rest);
    } else {
      ScanShape(ts, shift, start, index + 1);
      assert Scan(ts, shift, start, index) == Scan(ts, shift, start, index + 1);
    }
  }

  /** Putting the window [start, index) in front of windows that tile
      [index, |ts|) keeps both the tiling and the delta rule. */
  lemma PrependWindow(ts: seq<Time>, shift: Time -> Time, start: nat, index: nat, rest: seq<Range>)
    requires start < index < |ts|
    requires forall i :: start < i < index ==> ts[i] < shift(ts[start])
    requires ts[index] >= shift(ts[start])
    requires TilesFrom(rest, index, |ts|)
    requires BreaksAt(ts, shift, rest)
    ensures TilesFrom([Range(start, index)] + rest, start, |ts|)
    ensures BreaksAt(ts, shift, [Range(start, index)] + rest)
  {
    var ws := [Range(start, index)] + rest;
    assert forall w :: 1 <= w < |ws| ==> ws[w] == rest[w - 1];
  }

  /** Tiling plus the delta rule pin the windows down: any ranges with both
      properties are the ones the scan produces. */
  lemma BreaksDetermineWindows(ts: seq<Time>, shift: Time -> Time, ws: seq<Range>)
    requires |ts| > 0
    requires Advances(shift)
    requires Tiles(ws, |ts|)
    requires BreaksAt(ts, shift, ws)
    ensures ws == Split(ts, shift)
  {
    ScanUnique(ts, shift, ws, 0, 0);
  }

  /** The suffix of `ws` from window `w`, entered at slot `index` of that
      window, is what the scan produces from there. */
  lemma {:induction false} ScanUnique(ts: seq<Time>, shift: Time -> Time, ws: seq<Range>, w: nat, index: nat)
    requires Tiles(ws, |ts|)
    requires BreaksAt(ts, shift, ws)
    requires Advances(shift)
    requires w < |ws|
    requires ws[w].start <= index <= ws[w].stop
    ensures Scan(ts, shift, ws[w].start, index) == ws[w..]
    decreases |ts| - index
  {
    var start := ws[w].start;
    if index == |ts| {
      OnlyLastReachesEnd(ws, 0, |ts|, w);
    } else if index < ws[w].stop {
      assert ts[index] < shift(ts[start]) by {
        if index == start {
          assert ts[start] < shift(ts[start]);
        }
      }
      ScanUnique(ts, shift, ws, w, index + 1);
    } else {
      assert w + 1 < |ws|;
      assert ws[w + 1].start == index;
      assert ts[index] >= shift(ts[start]);
      ScanUnique(ts, shift, ws, w + 1, index + 1);
      assert ws[w..] == [ws[w]] + ws[w + 1..];
    }
  }

  /** Every window but the last ends before the end of the axis. */
  lemma OnlyLastReachesEnd(ws: seq<Range>, lo: nat, n: nat, w: nat)
    requires TilesFrom(ws, lo, n)
    requires w < |ws|
    ensures w < |ws| - 1 ==> ws[w].stop < n
  {
    if w < |ws| - 1 {
      assert ws[w + 1].start < ws[w + 1].stop;
    }
  }

  /** On an ascending axis every timestamp of a window lies within one delta
      of the window's first timestamp. */
  lemma WindowWithinDelta(ts: seq<Time>, shift: Time -> Time, w: nat, i: nat)
    requires |ts| > 0
    requires Advances(shift)
    requires forall p, q :: 0 <= p < q < |ts| ==> ts[p] < ts[q]
    requires w < |Split(ts, shift)|
    requires Split(ts, shift)[w].start <= i < Split(ts, shift)[w].stop
    ensures ts[Split(ts, shift)[w].start] <= ts[i] < shift(ts[Split(ts, shift)[w].start])
  {
    var ws := Split(ts, shift);
    if i == ws[w].start {
      assert ts[i] < shift(ts[i]);
    }
  }

  /** The range-collecting loop of resample_data, as written: walk the axis,
      close the current range at the first slot that reaches its start plus
      the delta, and close the last range at the end. */
  method CollectRanges(ts: seq<Time>, shift: Time -> Time) returns (ranges: seq<Range>)
    requires |ts| > 0
    requires Advances(shift)
    ensures Tiles(ranges, |ts|)
    ensures BreaksAt(ts, shift, ranges)
    ensures ranges == Split(ts, shift)
  {
    ranges := [];
    var start := 0;
    for index := 0 to |ts|
      invariant start <= index && start < |ts|
      invariant index == 0 ==> start == 0
      invariant ranges + Scan(ts, shift, start, index) == Scan(ts, shift, 0, 0)
    {
      if ts[index] >= shift(ts[start]) {
        var rest := Scan(ts, shift, index, index + 1);
        assert Scan(ts, shift, start, index) == [Range(start, index)] + rest;
        assert ranges + ([Range(start, index)] + rest) == (ranges + [Range(start, index)]) + rest;
        ranges := ranges + [Range(start, index)];
        start := index;
      } else {
        assert Scan(ts, shift, start, index) == Scan(ts, shift, start, index + 1);
      }
    }
    ranges := ranges + [Range(start, |ts|)];
    assert ranges == Split(ts, shift);
  }
}
